=== FILE: README.md ===
# CharacterAnalysis in Dafny

CharacterAnalysis is a command-line tool. It is given a book (a text file), a section size and one or more character names. It reads the book, lower-cases it, drops every possessive `'s`, deletes every character outside `[a-zA-Z0-9 -]` and splits the rest into words. It then cuts the word list into sections of `sectionSize` consecutive words. For each character it draws an image 20 pixels high with one column per section: black where the section mentions the character, white elsewhere. The character is lower-cased before the search, and the image is saved as `<lower-cased character>.png`. Right after starting the image searches, and without waiting for them to finish, it writes `<book>.html`, a table with one row per character. Each row shows the name as typed and links `<character>.png`, also as typed, so for a name with an upper-case letter the link misses the saved image (see Findings).

This project models that core as pure Dafny functions and proves properties about it. It has seven modules:

- `Wrappers`: `Option` and `Result`.
- `GoStrings`: the parts of Go's `strings` package the tool relies on. These are `ToLower`, `Replace` with an unlimited count, `Fields`, and `Index`, which `Replace` uses to find each occurrence. `Join` with a single space is also modelled, although the tool does not call it; it is used only to state that re-tokenizing the space-joined words gives them back.
- `Tokenizer`: `RemovePunctuation` and the text-to-words pipeline of `main`.
- `Raster`: colours, the image, the drawing loop and the image's file name.
- `OccurrenceMapper`: `CreateImage`. This covers section arithmetic, the block map (which sections mention a term), the match count, the scan loop and the result record.
- `Summary`: `CreateHTML`. This covers the book name, the page name, the table rows and a reader that parses the rows back.
- `Coordinator`: `main` without I/O. It covers the argument check, the section-size fall-backs, one result per character and the page. `Analyse` writes the page as the tool does; `AnalyseLinked` is the same run with the page's image links corrected (see Findings).

`ceil(n / size)` and `floor(i / size)` are computed exactly with integer division; the tool uses floating point for them. `strconv.ParseInt` is an input: the parsed value or `None`. The book's bytes are an input string. Each character's goroutine becomes one entry of a result sequence.

## Model

| member | source | states |
|---|---|---|
| `GoStrings.LowerChar` | characters.go:138 | one character is lower-cased: 'A'..'Z' move up by 32 code points, everything else is unchanged |
| `GoStrings.ToLower` | characters.go:138 | the lower-cased text has the same length and no upper-case letter; each letter is mapped and every other character stays in place |
| `GoStrings.ToLowerConcat` | characters.go:138 | lower-casing a concatenation is the concatenation of the lower-cased parts |
| `GoStrings.ToLowerNoUpper` | characters.go:138 | text with no upper-case letter is its own lower-case form |
| `GoStrings.Index` | characters.go:140 | the reference for finding an occurrence: the result is an occurrence with none before it, and `None` means the pattern occurs nowhere |
| `GoStrings.ReplaceAtLeftmost` | characters.go:140 | Replace agrees with Index: at the leftmost occurrence it keeps the text before it, emits the replacement and goes on after the occurrence |
| `GoStrings.ReplaceWithoutMatch` | characters.go:140 | where Index finds no occurrence, Replace returns its input unchanged |
| `GoStrings.ReplaceChars` | characters.go:140 | every character of the result comes from the input or from the replacement |
| `GoStrings.ReplaceShrinks` | characters.go:87 | a replacement no longer than the pattern never lengthens the text |
| `GoStrings.ReplaceAbsent` | characters.go:140 | text without the pattern's first character is returned unchanged |
| `GoStrings.ReplaceCleanPrefix` | characters.go:140 | a prefix that cannot start an occurrence passes through, and the rest is scanned alone |
| `GoStrings.ReplaceSeparated` | characters.go:140 | a character the pattern does not contain splits the scan into two independent scans |
| `GoStrings.ReplacePairConcat` | characters.go:140 | for a two-character pattern, scanning a concatenation is scanning the parts, unless an occurrence straddles the seam |
| `GoStrings.WordLength` | characters.go:144 | the leading run of non-space characters ends at the first whitespace character or at the end of the text |
| `GoStrings.FieldsAreWords` | characters.go:144 | every field is a non-empty run of non-space characters |
| `GoStrings.FieldsChars` | characters.go:144 | every character of every field occurs in the text |
| `GoStrings.FieldsOfWord` | characters.go:144 | a single word is a single field |
| `GoStrings.FieldsOfBlank` | characters.go:144 | text made of whitespace only has no fields |
| `GoStrings.FieldsSplit` | characters.go:144 | splitting at any whitespace character gives the fields of both sides, concatenated |
| `GoStrings.FieldsOfJoin` | characters.go:144 | joining words with single spaces and splitting again gives the words back |
| `GoStrings.JoinSpaceChars` | characters.go:144 | every character of the joined text is a space or comes from one of the words |
| `Tokenizer.RemovePunctuation` | characters.go:78-81 | the result is no longer than the input and holds only characters of `[a-zA-Z0-9 -]`, all taken from the input; text that is already clean is returned as is |
| `Tokenizer.RemovePunctuationIsSubsequence` | characters.go:78-81 | the kept characters stay in their original order |
| `Tokenizer.RemovePunctuationConcat` | characters.go:78-81 | the filter works character by character, so it distributes over concatenation |
| `Tokenizer.RemovePunctuationIdempotent` | characters.go:78-81 | filtering twice is the same as filtering once |
| `Tokenizer.Normalize` | characters.go:138-142 | after lower-casing, possessive removal and filtering, only lower-case letters, digits, hyphens and spaces remain |
| `Tokenizer.Tokenize` | characters.go:138-144 | every word is a non-empty run of lower-case letters, digits and hyphens |
| `Tokenizer.NormalizeClean` | characters.go:138-142 | text of lower-case letters, digits, hyphens and spaces comes through the pipeline unchanged |
| `Tokenizer.TokenizeToken` | characters.go:138-144 | a single token is its own tokenization |
| `Tokenizer.TokenizeJoinRoundTrip` | characters.go:138-144 | joining the words with spaces and tokenizing again gives the same words |
| `Tokenizer.TokenizeSpaceSplits` | characters.go:138-144 | a space always separates words: the words of the text are the words of each side |
| `Tokenizer.SeparatorSplits` | characters.go:138-142 | a kept lower-case character other than `s` splits the normalised text into the two normalised sides |
| `Tokenizer.DeletedCharJoins` | characters.go:138-144 | a deleted character other than the apostrophe, such as a newline or a full stop, glues the words on either side together, unless that would create an `'s` |
| `Tokenizer.NewlineMergesWords` | characters.go:138-144 | two words separated only by a newline become one word |
| `Tokenizer.PossessiveIsDropped` | characters.go:138-144 | a name followed by `'s` is the name alone |
| `Raster.ColumnColour` | characters.go:61-66 | a column is opaque black exactly when its section is used, and opaque white otherwise |
| `Raster.Render` | characters.go:60-70 | the image is well formed, 20 rows high, with one column per section |
| `Raster.RenderColumns` | characters.go:60-70 | every pixel of a column has the column's colour: black exactly when the section is used, white exactly when it is not |
| `Raster.ReadRenderRoundTrip` | characters.go:60-70 | the block map can be read back from the first row of the image |
| `Raster.Paint` | characters.go:60-70 | the drawing loop over a fresh raster of transparent pixels produces exactly the rendered image |
| `Raster.ImageFileName` | characters.go:72 | the file name is the search term followed by `.png` |
| `Raster.ImageFileNameInjective` | characters.go:72 | different search terms get different file names, so images for different search terms never overwrite each other. Names equal up to case share a search term and are written to the same file |
| `OccurrenceMapper.Width` | characters.go:40 | the image width covers every word with sections, and one section fewer would not |
| `OccurrenceMapper.WidthIsLeast` | characters.go:40 | every section count that covers all words is at least the width |
| `OccurrenceMapper.SectionOf` | characters.go:48 | word `i` lies in section `s` exactly when `s*size <= i < (s+1)*size` |
| `OccurrenceMapper.SectionInBounds` | characters.go:48-51 | the section of every word index is a valid index of `usedInSection` |
| `OccurrenceMapper.Count` | characters.go:45-56 | the count never exceeds the number of words |
| `OccurrenceMapper.CountIsMatchPositions` | characters.go:47-56 | the count is the number of word positions that equal some term: a word counts once, however many terms it equals |
| `OccurrenceMapper.CountPositive` | characters.go:47-56 | the count is positive exactly when some word equals a term |
| `OccurrenceMapper.TermsActAsSet` | characters.go:49-55 | repeating or reordering the terms changes neither the count nor the block map |
| `OccurrenceMapper.MatchMarksSection` | characters.go:50-51 | a matching word marks the section it lies in |
| `OccurrenceMapper.CountZeroIffBlank` | characters.go:43-56 | nothing is counted exactly when every section is left white |
| `OccurrenceMapper.SectionLocality` | characters.go:47-56 | a section's entry depends only on the words inside that section |
| `OccurrenceMapper.BlockMapUnion` | characters.go:110-112 | for a search term of several names, a section is marked exactly when one of the names marks it |
| `OccurrenceMapper.WholeTextOneSection` | characters.go:148-150 | with the section size equal to the word count there is one column, black exactly when some word matches |
| `OccurrenceMapper.ContainsTerm` | characters.go:49-55 | the inner loop finds a term exactly when the word equals one of the terms |
| `OccurrenceMapper.ScanStep` | characters.go:47-56 | one iteration marks only the current word's section, and only when the word matches; the count grows by one exactly then |
| `OccurrenceMapper.Scan` | characters.go:43-56 | the loop over the words produces exactly the block map and the count of matching positions |
| `OccurrenceMapper.CreateImage` | characters.go:33-72 | the terms are the fields of the search term; the block map and image have one column per section; the count is zero exactly when the image is all white; the block map can be read back from the image; the file is `<searchTerm>.png` |
| `OccurrenceMapper.RunCreateImage` | characters.go:33-72 | splitting the term, scanning and painting, step by step as the source does, yields exactly `CreateImage` |
| `OccurrenceMapper.SmallExample` | characters.go:33-56 | the words a b c d, in sections of 2 and searched for b, give the block map [black, white] and a count of 1 |
| `Summary.BookName` | characters.go:87 | the book name is never longer than the file name |
| `Summary.BookNameWithoutDot` | characters.go:87 | a file name without a '.' is the book name as it stands |
| `Summary.BookNameStripsExtension` | characters.go:87 | `<stem>.txt` with no other '.' names the book `<stem>` |
| `Summary.BookNameRemovesEveryExtension` | characters.go:87 | every `.txt` is cut, including one in the middle of the name |
| `Summary.DocumentName` | characters.go:88 | the page is named `<book>.html` |
| `Summary.Entries` | characters.go:93-95 | there is one entry per character, in order, holding the character's name and its link |
| `Summary.RowsConcat` | characters.go:93-95 | appending rows for two lists one after the other gives the rows of the joined list |
| `Summary.RowsAround` | characters.go:93-95 | splitting the entries at any position splits the rows there |
| `Summary.RowOrder` | characters.go:91-96 | the page is the header, the rows of the characters before k, the k-th character's row with its link, the rows after it, then the footer |
| `Summary.NoCharacters` | characters.go:91-96 | with no characters the page is the header followed by the footer |
| `Summary.SingleCharacterPage` | characters.go:91-96 | the page for one character is the header, that character's row and the footer |
| `Summary.ReadRowsRoundTrip` | characters.go:93-95 | rows of entries whose name holds no '<' and whose link holds no quote read back as exactly those entries |
| `Summary.PageRoundTrip` | characters.go:91-96 | the page read back lists exactly its characters, in order, each with its link, whatever the book is called |
| `Summary.RowInjective` | characters.go:94 | two rows for the same name are equal only when they link the same image |
| `Summary.LinkStylesAgree` | characters.go:94 | linking the name as typed and linking the lower-cased name agree exactly when the name has no upper-case letter |
| `Summary.CapitalisedLinkMisses` | characters.go:94 | for a name with an upper-case letter, the link as written is not the file the image is saved under, and the page as written differs from the corrected page |
| `Coordinator.ResolveSectionSize` | characters.go:123-150 | the size is at least 1 unless the value is not positive and the text is empty; a positive value is used as given; a non-positive value is replaced by the word count, which gives one section; an unparsable value is replaced by 100 |
| `Coordinator.Query` | characters.go:156 | a character's query is as long as the name and has no upper-case letter |
| `Coordinator.Analyse` | characters.go:138-163 | a run fails exactly when the text has no words and the size is not positive. Otherwise it gives one result per character: `CreateImage` of the words, the lower-cased name and the section size, saved as `<lower-cased name>.png`, all as wide as the section count. The page is `CreateHTML` of the file name and the characters as typed |
| `Coordinator.AnalyseLinked` | characters.go:94 | the corrected run fails exactly when the run as written does; otherwise it has the same words, section size and results, and only its page differs: each row links the lower-cased name |
| `Coordinator.Run` | characters.go:117-173 | three or fewer arguments give the usage error; otherwise the run analyses `args[1]` for the characters from `args[3]` on |
| `Coordinator.ResultsIndependent` | characters.go:152-160 | a character's image depends only on the text, the size and that character, not on the other characters or their order; whether a run succeeds does not depend on the characters either |
| `Coordinator.CaseInsensitive` | characters.go:156 | names that agree up to case give the same result |
| `Coordinator.PageLinksAsTyped` | characters.go:152-163 | in the page a run writes, the k-th row links the k-th name as typed, between the rows before and after it. That link is the file the k-th image is saved under exactly when the name has no upper-case letter |
| `Coordinator.PageLinksImages` | characters.go:94 | in the corrected run's page each row links the very file its character's image is saved under, in the characters' order |
| `Coordinator.NonPositiveSizeOneColumn` | characters.go:148-150 | a size of zero or less, with some words, gives a single column that is black exactly when the character is mentioned |
| `Coordinator.FullNameMatchesEither` | characters.go:110-112 | a two-word name marks exactly the sections where either word occurs |
| `Coordinator.UniformWidths` | characters.go:40 | every image of a run has the same width |

## Left out

- File I/O is not modelled: `SaveImage`, `ioutil.ReadFile`, `ioutil.WriteFile` and PNG encoding. The book's text is an input. Images and the page are returned, not written.
- The `panic` on a read error is not modelled, because the file contents are an input.
- The printed messages are not modelled. This covers the usage text, the parse error, "Going to analyse", the word count, "Searching for" and the count printed at characters.go:58. `usedCount` is kept in the result instead.
- Goroutines and channels are not modelled. Each character's `CreateImage` is an independent entry of the result sequence, because the goroutines share only the read-only word list.
- Floating point is not modelled. `math.Ceil` and `math.Floor` of `float64` quotients are exact integer divisions here, so rounding for very large word counts is ignored.
- For an empty text with a non-positive size the width is `ceil(0 / 0)`, which is NaN. Go's conversion of NaN to an integer is platform-dependent, so what the tool then does depends on the platform: a negative width makes the image or slice allocation panic, and a width of 0 gives empty images. `Coordinator.Analyse` returns `Failure(UndefinedWidth)` for this case instead.
- `strconv.ParseInt` is not modelled: the parsed value or `None` is an input. The `int64` to `int` conversion at characters.go:159 is the identity on 64-bit platforms and is not modelled.
- `GoStrings.ToLower`: lower-cases ASCII letters only. Go maps all of Unicode; the Kelvin sign, for example, becomes 'k'.
- `Tokenizer.Tokenize`: requires ASCII text, because of the case mapping above. For ASCII text, `strings.Fields` splitting on ASCII whitespace is exact.
- `Coordinator.Analyse`: requires ASCII book text, for the same reason. Character names are not restricted. Non-ASCII characters in a name are neither lower-cased nor treated as whitespace, although Go does both.
- `Summary.PageRoundTrip`: holds only for names without '<' or a quote. The source does not escape HTML, so other names cannot be read back unambiguously.
- The regular expression engine is not modelled. `[^a-zA-Z0-9 -]` becomes a character predicate, deleting each character it matches.

## Findings

| source | as written | input that shows it | evidently intended | confidence | as-written member | corrected member |
|---|---|---|---|---|---|---|
| characters.go:94 | each row's image link is `character + ".png"`, with the name as typed on the command line. The image is saved under the lower-cased name (characters.go:156 and characters.go:72). | the character `Harry` is linked as `Harry.png` while the image is written to `harry.png`. On a case-sensitive file system the page shows a broken image. | the link names the file the image is saved under, `ToLower(character) + ".png"` | medium, not executed | `Summary.CapitalisedLinkMisses` (on `Summary.CreateHtml`), and `Coordinator.PageLinksAsTyped` for the run `Coordinator.Analyse` | `Summary.CreateHtmlLinked`, used by `Coordinator.AnalyseLinked`, which `Coordinator.PageLinksImages` proves correct |

=== FILE: coordinator.dfy ===
/**
 * The command of characters.go (`main`): read the book, tokenise it, settle the
 * section size, make one occurrence image per character and the analysis page.
 * The file contents and the parsed section size are inputs; each character's
 * goroutine becomes an independent entry of the result sequence.
 */
module Coordinator {
  import opened Wrappers
  import opened GoStrings
  import opened Tokenizer
  import opened OccurrenceMapper
  import opened Summary

  /** The section size used when the size argument does not parse. */
  const DefaultSectionSize: nat := 100

  /**
   * Why a run produces no analysis: too few arguments, or an empty book with a
   * non-positive size, where the image width is `ceil(0 / 0)`, which is not a number.
   */
  datatype RunError = Usage | UndefinedWidth

  /** Everything a run produces. */
  datatype Report = Report(
    words: seq<string>,
    sectionSize: nat,
    results: seq<Occurrences>,
    summary: Page)

  /**
   * The section size after the fall-backs: the default when parsing failed, the
   * whole text when the parsed value is not positive. `parsed` is the outcome of
   * parsing the size argument as a base-10 integer.
   */
  function ResolveSectionSize(parsed: Option<int>, wordCount: nat): (size: int)
    ensures size >= 1 <==> !(parsed.Some? && parsed.value <= 0 && wordCount == 0)
    ensures size >= 1 && parsed.Some? && parsed.value <= 0 ==> Width(wordCount, size) == 1
    ensures parsed.Some? && parsed.value >= 1 ==> size == parsed.value
    ensures parsed.None? ==> size == DefaultSectionSize
    ensures parsed.Some? && parsed.value <= 0 ==> size == wordCount
    ensures parsed.None? ==> Width(wordCount, size) == Width(wordCount, DefaultSectionSize)
  {
    var size := if parsed.None? then DefaultSectionSize as int else parsed.value;
    if size <= 0 then
      (if wordCount >= 1 then WholeTextWidth(wordCount); wordCount else wordCount)
    else size
  }

  lemma WholeTextWidth(n: nat)
    requires n >= 1
    ensures Width(n, n) == 1
  {
    WidthIsLeast(n, n, 1);
  }

  /** One character's query: lower-cased, then split into names. */
  function Query(character: string): (q: string)
    ensures |q| == |character|
    ensures forall i :: 0 <= i < |q| ==> !IsUpper(q[i])
  {
    ToLower(character)
  }

  /**
   * The analysis for a file name, the file's text, the parsed size and the characters,
   * as `main` does it: the page is `CreateHTML` of the characters as typed.
   */
  function Analyse(filename: string, text: string, parsed: Option<int>, characters: seq<string>): (r: Result<Report, RunError>)
    requires IsAscii(text)
    ensures r.Failure? <==> |Tokenize(text)| == 0 && parsed.Some? && parsed.value <= 0
    ensures r.Success? ==>
      r.value.words == Tokenize(text) && r.value.sectionSize >= 1 &&
      |r.value.results| == |characters| &&
      r.value.summary == CreateHtml(filename, characters)
    ensures r.Success? ==> forall k :: 0 <= k < |characters| ==>
      r.value.results[k] == CreateImage(r.value.words, Query(characters[k]), r.value.sectionSize) &&
      r.value.results[k].fileName == ImageLink(characters[k], Lowercased) &&
      r.value.results[k].terms == Fields(Query(characters[k])) &&
      r.value.results[k].image.width == Width(|r.value.words|, r.value.sectionSize)
  {
    var words := Tokenize(text);
    var size := ResolveSectionSize(parsed, |words|);
    if size < 1 then Failure(UndefinedWidth)
    else
      var results := seq(|characters|, k requires 0 <= k < |characters| => CreateImage(words, Query(characters[k]), size));
      Success(Report(words, size, results, CreateHtml(filename, characters)))
  }

  /**
   * The analysis with the page corrected to link each image under the name it is
   * saved as. It fails exactly when `Analyse` does, and differs from it only in the page.
   */
  function AnalyseLinked(filename: string, text: string, parsed: Option<int>, characters: seq<string>): (r: Result<Report, RunError>)
    requires IsAscii(text)
    ensures r.Success? == Analyse(filename, text, parsed, characters).Success?
    ensures r.Failure? ==> r == Analyse(filename, text, parsed, characters)
    ensures r.Success? ==>
      r.value.words == Analyse(filename, text, parsed, characters).value.words &&
      r.value.sectionSize == Analyse(filename, text, parsed, characters).value.sectionSize &&
      r.value.results == Analyse(filename, text, parsed, characters).value.results &&
      r.value.summary == CreateHtmlLinked(filename, characters)
  {
    match Analyse(filename, text, parsed, characters)
    case Failure(e) => Failure(e)
    case Success(report) => Success(report.(summary := CreateHtmlLinked(filename, characters)))
  }

  /** The whole command: `args[1]` names the book, `args[2]` is the size, the rest are characters. */
  function Run(args: seq<string>, text: string, parsed: Option<int>): (r: Result<Report, RunError>)
    requires IsAscii(text)
    ensures |args| <= 3 ==> r == Failure(Usage)
    ensures |args| > 3 ==> r == Analyse(args[1], text, parsed, args[3..])
  {
    if |args| > 3 then Analyse(args[1], text, parsed, args[3..]) else Failure(Usage)
  }

  /**
   * The goroutines share nothing but the word list: a character's image depends only
   * on the text, the size and that character, not on which other characters were asked for
   * or in which order.
   */
  lemma ResultsIndependent(filename: string, text: string, parsed: Option<int>,
                           cs1: seq<string>, cs2: seq<string>, k1: nat, k2: nat)
    requires IsAscii(text)
    requires k1 < |cs1| && k2 < |cs2| && cs1[k1] == cs2[k2]
    ensures Analyse(filename, text, parsed, cs1).Success? == Analyse(filename, text, parsed, cs2).Success?
    ensures Analyse(filename, text, parsed, cs1).Success? ==>
      Analyse(filename, text, parsed, cs1).value.results[k1] == Analyse(filename, text, parsed, cs2).value.results[k2]
  {
  }

  /** Characters are matched without regard to case. */
  lemma CaseInsensitive(filename: string, text: string, parsed: Option<int>, characters: seq<string>, j: nat, k: nat)
    requires IsAscii(text)
    requires j < |characters| && k < |characters| && ToLower(characters[j]) == ToLower(characters[k])
    ensures Analyse(filename, text, parsed, characters).Success? ==>
      Analyse(filename, text, parsed, characters).value.results[j] == Analyse(filename, text, parsed, characters).value.results[k]
  {
  }

  /**
   * In the page `main` writes, the k-th row links the name as typed, between the rows
   * of the characters before and after it. That link is the file the k-th image is
   * saved under exactly when the name has no upper-case letter.
   */
  lemma PageLinksAsTyped(filename: string, text: string, parsed: Option<int>, characters: seq<string>, k: nat)
    requires IsAscii(text) && k < |characters|
    ensures Analyse(filename, text, parsed, characters).Success? ==>
      Analyse(filename, text, parsed, characters).value.summary.html ==
      Header(BookName(filename)) + Rows(Entries(characters, AsTyped)[..k])
        + Row(Entry(characters[k], ImageLink(characters[k], AsTyped)))
        + Rows(Entries(characters, AsTyped)[k + 1..]) + Footer
    ensures Analyse(filename, text, parsed, characters).Success? ==>
      (ImageLink(characters[k], AsTyped) == Analyse(filename, text, parsed, characters).value.results[k].fileName <==>
       forall i :: 0 <= i < |characters[k]| ==> !IsUpper(characters[k][i]))
  {
    RowOrder(filename, characters, AsTyped, k);
    LinkStylesAgree(characters[k]);
  }

  /**
   * In the corrected page each row links the very file its character's image is saved
   * under, and the rows follow the order of the characters.
   */
  lemma PageLinksImages(filename: string, text: string, parsed: Option<int>, characters: seq<string>, k: nat)
    requires IsAscii(text) && k < |characters|
    ensures AnalyseLinked(filename, text, parsed, characters).Success? ==>
      AnalyseLinked(filename, text, parsed, characters).value.summary.html ==
      Header(BookName(filename)) + Rows(Entries(characters, Lowercased)[..k])
        + Row(Entry(characters[k], AnalyseLinked(filename, text, parsed, characters).value.results[k].fileName))
        + Rows(Entries(characters, Lowercased)[k + 1..]) + Footer
  {
    RowOrder(filename, characters, Lowercased, k);
  }

  /** With a size of zero or less every image is a single column: black exactly when the character is mentioned. */
  lemma NonPositiveSizeOneColumn(filename: string, text: string, v: int, characters: seq<string>, k: nat)
    requires IsAscii(text) && v <= 0 && k < |characters|
    requires |Tokenize(text)| >= 1
    ensures Analyse(filename, text, Some(v), characters).Success?
    ensures Analyse(filename, text, Some(v), characters).value.results[k].usedInSection ==
      [Analyse(filename, text, Some(v), characters).value.results[k].usedCount > 0]
  {
    var words := Tokenize(text);
    WholeTextOneSection(words, Fields(Query(characters[k])));
  }

  /** A name made of two words finds the sections where either word occurs. */
  lemma FullNameMatchesEither(words: seq<string>, first: string, last: string, size: nat, s: nat)
    requires size >= 1 && s < Width(|words|, size)
    ensures CreateImage(words, Query(first + [' '] + last), size).usedInSection[s] ==
      (CreateImage(words, Query(first), size).usedInSection[s] || CreateImage(words, Query(last), size).usedInSection[s])
  {
    ToLowerConcat(first + [' '], last);
    ToLowerConcat(first, [' ']);
    assert ToLower([' ']) == [' '];
    FieldsSplit(ToLower(first), ' ', ToLower(last));
    BlockMapUnion(words, Fields(Query(first)), Fields(Query(last)), size);
  }

  /** Every image of a run has the same width, `ceil(words / size)`. */
  lemma UniformWidths(filename: string, text: string, parsed: Option<int>, characters: seq<string>, j: nat, k: nat)
    requires IsAscii(text) && j < |characters| && k < |characters|
    ensures Analyse(filename, text, parsed, characters).Success? ==>
      Analyse(filename, text, parsed, characters).value.results[j].image.width ==
      Analyse(filename, text, parsed, characters).value.results[k].image.width
  {
  }
}

=== FILE: go_strings.dfy ===
/**
 * The functions of Go's `strings` package that the analyser relies on:
 * `ToLower`, `Replace` with an unlimited count, `Fields`, and `Index`, which
 * `Replace` uses to find each occurrence. `Join` with a single-space separator
 * is not called by the analyser; it is here only to state that re-tokenizing
 * the space-joined words gives them back. Case mapping is modelled for ASCII
 * text only.
 */
module GoStrings {
  import opened Wrappers

  /** Every character lies in the 7-bit ASCII range. */
  predicate IsAscii(s: string) {
    forall i :: 0 <= i < |s| ==> s[i] as int < 128
  }

  predicate IsUpper(c: char) {
    'A' <= c <= 'Z'
  }

  /** ASCII lower-casing of one character; everything but 'A'..'Z' is left alone. */
  function LowerChar(c: char): (d: char)
    ensures !IsUpper(d)
    ensures IsUpper(c) ==> d as int == c as int + 32
    ensures !IsUpper(c) ==> d == c
  {
    if IsUpper(c) then (c as int + 32) as char else c
  }

  /** `strings.ToLower` on ASCII text. */
  function ToLower(s: string): (r: string)
    ensures |r| == |s|
    ensures forall i :: 0 <= i < |r| ==> !IsUpper(r[i])
    ensures forall i :: 0 <= i < |s| && !IsUpper(s[i]) ==> r[i] == s[i]
    ensures forall i :: 0 <= i < |s| && IsUpper(s[i]) ==> r[i] as int == s[i] as int + 32
  {
    seq(|s|, i requires 0 <= i < |s| => LowerChar(s[i]))
  }

  /** Lower-casing text that has no upper-case letter changes nothing. */
  lemma ToLowerNoUpper(s: string)
    requires forall i :: 0 <= i < |s| ==> !IsUpper(s[i])
    ensures ToLower(s) == s
  {
  }

  /** Lower-casing works character by character, so it distributes over concatenation. */
  lemma ToLowerConcat(a: string, b: string)
    ensures ToLower(a + b) == ToLower(a) + ToLower(b)
  {
    assert ToLower(a + b) == ToLower(a) + ToLower(b) by {
      forall i | 0 <= i < |a + b|
        ensures ToLower(a + b)[i] == (ToLower(a) + ToLower(b))[i]
      {
        if i < |a| {
          assert (a + b)[i] == a[i];
        } else {
          assert (a + b)[i] == b[i - |a|];
        }
      }
    }
  }

  /** `pat` occurs in `s` starting at index `j`. */
  predicate MatchAt(s: string, pat: string, j: int) {
    0 <= j && j + |pat| <= |s| && s[j..j + |pat|] == pat
  }

  /** `strings.Index`: the leftmost occurrence of a non-empty `pat`, with -1 modelled as `None`. */
  function Index(s: string, pat: string): (r: Option<nat>)
    requires |pat| > 0
    ensures r.Some? ==> MatchAt(s, pat, r.value)
    ensures r.Some? ==> forall j :: 0 <= j < r.value ==> !MatchAt(s, pat, j)
    ensures r.None? ==> forall j :: 0 <= j ==> !MatchAt(s, pat, j)
    decreases |s|
  {
    if |s| < |pat| then None
    else if s[..|pat|] == pat then Some(0)
    else
      var rest := Index(s[1..], pat);
      assert !MatchAt(s, pat, 0) by {
        assert s[0..|pat|] == s[..|pat|];
      }
      ShiftMatch(s, pat);
      match rest
      case None => None
      case Some(j) => Some(j + 1)
  }

  /** An occurrence at index j of `s`, for j >= 1, is an occurrence at index j - 1 of `s[1..]`. */
  lemma ShiftMatch(s: string, pat: string)
    requires |s| > 0
    ensures forall j :: 1 <= j ==> (MatchAt(s, pat, j) <==> MatchAt(s[1..], pat, j - 1))
  {
    forall j | 1 <= j
      ensures MatchAt(s, pat, j) <==> MatchAt(s[1..], pat, j - 1)
    {
      if j + |pat| <= |s| {
        assert s[1..][j - 1..j - 1 + |pat|] == s[j..j + |pat|];
      }
    }
  }

  /**
   * `strings.Replace(s, pat, rep, -1)` for a non-empty `pat`: one left-to-right pass
   * that replaces every non-overlapping occurrence; text produced by a replacement
   * is never scanned again.
   */
  function Replace(s: string, pat: string, rep: string): (r: string)
    requires |pat| > 0
    decreases |s|
  {
    if |s| < |pat| then s
    else if s[..|pat|] == pat then rep + Replace(s[|pat|..], pat, rep)
    else [s[0]] + Replace(s[1..], pat, rep)
  }

  /** A replacement no longer than the pattern never lengthens the text. */
  lemma {:induction false} ReplaceShrinks(s: string, pat: string, rep: string)
    requires |pat| > 0 && |rep| <= |pat|
    ensures |Replace(s, pat, rep)| <= |s|
    decreases |s|
  {
    if |s| < |pat| {
    } else if s[..|pat|] == pat {
      ReplaceShrinks(s[|pat|..], pat, rep);
    } else {
      ReplaceShrinks(s[1..], pat, rep);
    }
  }

  /** Every character of the result comes from the input or from the replacement. */
  lemma {:induction false} ReplaceChars(s: string, pat: string, rep: string)
    requires |pat| > 0
    ensures forall c :: c in Replace(s, pat, rep) ==> c in s || c in rep
    decreases |s|
  {
    if |s| < |pat| {
    } else if s[..|pat|] == pat {
      ReplaceChars(s[|pat|..], pat, rep);
      assert forall c :: c in s[|pat|..] ==> c in s;
    } else {
      ReplaceChars(s[1..], pat, rep);
      assert forall c :: c in s[1..] ==> c in s;
    }
  }

  /** Where no occurrence starts, the scan copies one character and moves on. */
  lemma ReplaceSkip(s: string, pat: string, rep: string)
    requires |pat| > 0 && |s| >= |pat| && s[..|pat|] != pat
    ensures Replace(s, pat, rep) == [s[0]] + Replace(s[1..], pat, rep)
  {
  }

  /** When `Index` finds no occurrence, `Replace` returns its input. */
  lemma {:induction false} ReplaceWithoutMatch(s: string, pat: string, rep: string)
    requires |pat| > 0 && Index(s, pat).None?
    ensures Replace(s, pat, rep) == s
    decreases |s|
  {
    if |s| >= |pat| {
      assert s[..|pat|] != pat;
      ReplaceWithoutMatch(s[1..], pat, rep);
      assert [s[0]] + s[1..] == s;
    }
  }

  /**
   * `Replace` is Go's scan: at the leftmost occurrence `j` found by `Index` it keeps
   * `s[..j]`, emits the replacement and continues after the occurrence.
   */
  lemma ReplaceAtLeftmost(s: string, pat: string, rep: string, j: nat)
    requires |pat| > 0 && Index(s, pat) == Some(j)
    ensures j + |pat| <= |s|
    ensures Replace(s, pat, rep) == s[..j] + rep + Replace(s[j + |pat|..], pat, rep)
  {
    IndexIsFirstMatch(s, pat, j);
    ReplaceAtFirstMatch(s, pat, rep, j);
  }

  /** The scan meets an occurrence at `j` and none before it: the recursive shape of a leftmost match. */
  predicate FirstMatch(s: string, pat: string, j: nat)
    requires |pat| > 0
    decreases j
  {
    |s| >= |pat| &&
    if j == 0 then s[..|pat|] == pat
    else s[..|pat|] != pat && FirstMatch(s[1..], pat, j - 1)
  }

  /** What `Index` finds is where the scan first meets the pattern. */
  lemma {:induction false} IndexIsFirstMatch(s: string, pat: string, j: nat)
    requires |pat| > 0 && Index(s, pat) == Some(j)
    ensures FirstMatch(s, pat, j)
    decreases j
  {
    if j > 0 {
      IndexTail(s, pat, j);
      IndexIsFirstMatch(s[1..], pat, j - 1);
    }
  }

  /** An occurrence found later than index 0 is found one place earlier in the tail. */
  lemma IndexTail(s: string, pat: string, j: nat)
    requires |pat| > 0 && j > 0 && Index(s, pat) == Some(j)
    ensures |s| >= |pat| && s[..|pat|] != pat && Index(s[1..], pat) == Some(j - 1)
  {
  }

  /** At the first occurrence the scan keeps the text before it and emits the replacement. */
  lemma {:induction false} ReplaceAtFirstMatch(s: string, pat: string, rep: string, j: nat)
    requires |pat| > 0 && FirstMatch(s, pat, j)
    ensures j + |pat| <= |s|
    ensures Replace(s, pat, rep) == s[..j] + rep + Replace(s[j + |pat|..], pat, rep)
    decreases j
  {
    if j == 0 {
      ReplaceAtStartMatch(s, pat, rep);
    } else {
      FirstMatchTail(s, pat, j);
      ReplaceAtFirstMatch(s[1..], pat, rep, j - 1);
      FirstMatchStep(s, pat, rep, j);
    }
  }

  /** An occurrence at index 0 is replaced at once. */
  lemma ReplaceAtStartMatch(s: string, pat: string, rep: string)
    requires |pat| > 0 && FirstMatch(s, pat, 0)
    ensures |pat| <= |s|
    ensures Replace(s, pat, rep) == s[..0] + rep + Replace(s[0 + |pat|..], pat, rep)
  {
    assert s[..0] + rep == rep;
  }

  /** A first occurrence later than index 0 is one place earlier in the tail. */
  lemma FirstMatchTail(s: string, pat: string, j: nat)
    requires |pat| > 0 && j > 0 && FirstMatch(s, pat, j)
    ensures |s| >= |pat| && s[..|pat|] != pat && FirstMatch(s[1..], pat, j - 1)
  {
  }

  /** One step of the scan towards the first occurrence, given the scan of the tail. */
  lemma FirstMatchStep(s: string, pat: string, rep: string, j: nat)
    requires |pat| > 0 && 0 < j && j + |pat| <= |s| && s[..|pat|] != pat
    requires Replace(s[1..], pat, rep) == s[1..][..j - 1] + rep + Replace(s[1..][j - 1 + |pat|..], pat, rep)
    ensures Replace(s, pat, rep) == s[..j] + rep + Replace(s[j + |pat|..], pat, rep)
  {
    var front, rest := s[1..][..j - 1], Replace(s[1..][j - 1 + |pat|..], pat, rep);
    ReplaceSkip(s, pat, rep);
    ConsSlices(s, j, |pat|);
    AppendAssoc([s[0]], front + rep, rest);
    AppendAssoc([s[0]], front, rep);
  }

  /** Concatenation is associative. */
  lemma AppendAssoc<T>(p: seq<T>, q: seq<T>, r: seq<T>)
    ensures (p + q) + r == p + (q + r)
  {
  }

  /** Slicing after dropping the first element, restated on the original sequence. */
  lemma ConsSlices(s: string, j: nat, n: nat)
    requires 0 < j && j + n <= |s|
    ensures [s[0]] + s[1..][..j - 1] == s[..j]
    ensures s[1..][j - 1 + n..] == s[j + n..]
  {
  }

  /** Text in which the first character of `pat` never appears is left unchanged. */
  lemma {:induction false} ReplaceAbsent(s: string, pat: string, rep: string)
    requires |pat| > 0 && pat[0] !in s
    ensures Replace(s, pat, rep) == s
    decreases |s|
  {
    if |s| < |pat| {
    } else {
      assert s[..|pat|][0] == s[0] != pat[0];
      assert s[1..] == s[1..] && forall c :: c in s[1..] ==> c in s;
      ReplaceAbsent(s[1..], pat, rep);
      assert [s[0]] + s[1..] == s;
    }
  }

  /** A prefix that cannot start an occurrence passes through unchanged. */
  lemma {:induction false} ReplaceCleanPrefix(x: string, y: string, pat: string, rep: string)
    requires |pat| > 0 && pat[0] !in x
    ensures Replace(x + y, pat, rep) == x + Replace(y, pat, rep)
    decreases |x|
  {
    var s := x + y;
    if |x| == 0 {
      assert s == y;
    } else if |s| < |pat| {
      assert Replace(y, pat, rep) == y;
    } else {
      assert s[..|pat|][0] == x[0] != pat[0];
      assert s[1..] == x[1..] + y;
      ReplaceCleanPrefix(x[1..], y, pat, rep);
      assert x == [x[0]] + x[1..];
    }
  }

  /** A character that `pat` does not contain separates the text into independently scanned parts. */
  lemma {:induction false} ReplaceSeparated(x: string, c: char, y: string, pat: string, rep: string)
    requires |pat| > 0 && c !in pat
    ensures Replace(x + [c] + y, pat, rep) == Replace(x, pat, rep) + [c] + Replace(y, pat, rep)
    decreases |x|
  {
    var s := x + [c] + y;
    if |x| == 0 {
      assert s == [c] + y;
      assert s[0] == c && c != pat[0];
      if |s| >= |pat| {
        assert s[..|pat|][0] == c;
      }
      ReplaceCopyFront(s, pat, rep);
      assert s[1..] == y;
    } else if |x| >= |pat| && s[..|pat|] == pat {
      assert x[..|pat|] == pat;
      assert s[|pat|..] == x[|pat|..] + [c] + y;
      ReplaceSeparated(x[|pat|..], c, y, pat, rep);
    } else {
      if |x| < |pat| && |s| >= |pat| {
        assert s[..|pat|][|x|] == c;
      }
      if |x| >= |pat| {
        assert x[..|pat|] == s[..|pat|];
      }
      ReplaceCopyFront(s, pat, rep);
      ReplaceCopyFront(x, pat, rep);
      assert s[1..] == x[1..] + [c] + y;
      ReplaceSeparated(x[1..], c, y, pat, rep);
      SeparatedCopyStep(x, c, y, pat, rep);
    }
  }

  /** Where no occurrence starts, even in a text shorter than the pattern, the scan copies one character. */
  lemma ReplaceCopyFront(s: string, pat: string, rep: string)
    requires |pat| > 0 && |s| > 0 && !(|s| >= |pat| && s[..|pat|] == pat)
    ensures Replace(s, pat, rep) == [s[0]] + Replace(s[1..], pat, rep)
  {
    if |s| < |pat| {
      assert Replace(s[1..], pat, rep) == s[1..];
      assert s == [s[0]] + s[1..];
    }
  }

  lemma SeparatedCopyStep(x: string, c: char, y: string, pat: string, rep: string)
    requires |pat| > 0 && |x| > 0
    requires Replace(x + [c] + y, pat, rep) == [x[0]] + Replace(x[1..] + [c] + y, pat, rep)
    requires Replace(x, pat, rep) == [x[0]] + Replace(x[1..], pat, rep)
    requires Replace(x[1..] + [c] + y, pat, rep) == Replace(x[1..], pat, rep) + [c] + Replace(y, pat, rep)
    ensures Replace(x + [c] + y, pat, rep) == Replace(x, pat, rep) + [c] + Replace(y, pat, rep)
  {
  }

  /**
   * For a two-character pattern, scanning a concatenation equals scanning the parts,
   * unless an occurrence straddles the seam.
   */
  lemma {:induction false} ReplacePairConcat(x: string, y: string, pat: string, rep: string)
    requires |pat| == 2
    requires !(|x| > 0 && |y| > 0 && x[|x| - 1] == pat[0] && y[0] == pat[1])
    ensures Replace(x + y, pat, rep) == Replace(x, pat, rep) + Replace(y, pat, rep)
    decreases |x|
  {
    if |x| == 0 {
      assert x + y == y;
    } else if |x| == 1 {
      PairAfterOne(x, y, pat, rep);
    } else if x[..2] == pat {
      ReplacePairConcat(x[2..], y, pat, rep);
      PairMatchStep(x, y, pat, rep);
    } else {
      ReplacePairConcat(x[1..], y, pat, rep);
      PairCopyStep(x, y, pat, rep);
    }
  }

  /** A single character before the seam is copied unless it starts a straddling occurrence. */
  lemma PairAfterOne(x: string, y: string, pat: string, rep: string)
    requires |pat| == 2 && |x| == 1
    requires !(|y| > 0 && x[0] == pat[0] && y[0] == pat[1])
    ensures Replace(x + y, pat, rep) == Replace(x, pat, rep) + Replace(y, pat, rep)
  {
    var s := x + y;
    if |y| == 0 {
      assert s == x;
    } else {
      assert s[..2] == [x[0], y[0]];
      assert s[1..] == y;
    }
  }

  /** An occurrence at the front of `x` is replaced in the concatenation as in `x` alone. */
  lemma PairMatchStep(x: string, y: string, pat: string, rep: string)
    requires |pat| == 2 && |x| >= 2 && x[..2] == pat
    requires Replace(x[2..] + y, pat, rep) == Replace(x[2..], pat, rep) + Replace(y, pat, rep)
    ensures Replace(x + y, pat, rep) == Replace(x, pat, rep) + Replace(y, pat, rep)
  {
    assert (x + y)[..2] == x[..2];
    ReplaceMatchFront(x + y, pat, rep);
    ReplaceMatchFront(x, pat, rep);
    assert (x + y)[2..] == x[2..] + y;
    AppendAssoc(rep, Replace(x[2..], pat, rep), Replace(y, pat, rep));
  }

  /** A character of `x` that starts no occurrence is copied in the concatenation as in `x` alone. */
  lemma PairCopyStep(x: string, y: string, pat: string, rep: string)
    requires |pat| == 2 && |x| >= 2 && x[..2] != pat
    requires Replace(x[1..] + y, pat, rep) == Replace(x[1..], pat, rep) + Replace(y, pat, rep)
    ensures Replace(x + y, pat, rep) == Replace(x, pat, rep) + Replace(y, pat, rep)
  {
    assert (x + y)[..2] == x[..2];
    ReplaceSkip(x + y, pat, rep);
    ReplaceSkip(x, pat, rep);
    assert (x + y)[1..] == x[1..] + y;
    AppendAssoc([x[0]], Replace(x[1..], pat, rep), Replace(y, pat, rep));
  }

  /** Where an occurrence starts, the scan emits the replacement and continues after it. */
  lemma ReplaceMatchFront(s: string, pat: string, rep: string)
    requires |pat| > 0 && |s| >= |pat| && s[..|pat|] == pat
    ensures Replace(s, pat, rep) == rep + Replace(s[|pat|..], pat, rep)
  {
  }

  /** The whitespace `strings.Fields` splits on, restricted to ASCII: tab, LF, VT, FF, CR and space. */
  predicate IsSpace(c: char) {
    c == ' ' || c == '\t' || c == '\n' || c as int == 0x0B || c as int == 0x0C || c == '\r'
  }

  /** A non-empty run of non-space characters: what `strings.Fields` returns as one field. */
  predicate IsWord(w: string) {
    |w| > 0 && forall i :: 0 <= i < |w| ==> !IsSpace(w[i])
  }

  /** Length of the leading run of non-space characters. */
  function WordLength(s: string): (n: nat)
    ensures n <= |s|
    ensures forall i :: 0 <= i < n ==> !IsSpace(s[i])
    ensures n < |s| ==> IsSpace(s[n])
  {
    if |s| == 0 || IsSpace(s[0]) then 0 else 1 + WordLength(s[1..])
  }

  /** `strings.Fields`: the maximal runs of non-space characters, in order. */
  function Fields(s: string): (r: seq<string>)
    decreases |s|
  {
    if |s| == 0 then []
    else if IsSpace(s[0]) then Fields(s[1..])
    else
      var n := WordLength(s);
      [s[..n]] + Fields(s[n..])
  }

  /** Every field is a non-empty run of non-space characters. */
  lemma {:induction false} FieldsAreWords(s: string)
    ensures forall k :: 0 <= k < |Fields(s)| ==> IsWord(Fields(s)[k])
    decreases |s|
  {
    if |s| == 0 {
    } else if IsSpace(s[0]) {
      FieldsAreWords(s[1..]);
    } else {
      var n := WordLength(s);
      var r := Fields(s);
      FieldsAreWords(s[n..]);
      assert r == [s[..n]] + Fields(s[n..]);
      forall k | 0 <= k < |r|
        ensures IsWord(r[k])
      {
        if k > 0 {
          assert r[k] == Fields(s[n..])[k - 1];
        }
      }
    }
  }

  /** Every character of every field comes from the text. */
  lemma {:induction false} FieldsChars(s: string)
    ensures forall k, i :: 0 <= k < |Fields(s)| && 0 <= i < |Fields(s)[k]| ==> Fields(s)[k][i] in s
    decreases |s|
  {
    if |s| == 0 {
    } else if IsSpace(s[0]) {
      FieldsChars(s[1..]);
      assert forall c :: c in s[1..] ==> c in s;
    } else {
      var n := WordLength(s);
      var r := Fields(s);
      FieldsChars(s[n..]);
      forall k, i | 0 <= k < |r| && 0 <= i < |r[k]|
        ensures r[k][i] in s
      {
        if k == 0 {
          assert r[0] == s[..n];
          assert s[..n][i] == s[i];
        } else {
          assert r[k] == Fields(s[n..])[k - 1];
          assert r[k][i] in s[n..];
        }
      }
    }
  }

  /** `strings.Join(ws, " ")`. */
  function JoinSpace(ws: seq<string>): string {
    if |ws| == 0 then ""
    else if |ws| == 1 then ws[0]
    else ws[0] + " " + JoinSpace(ws[1..])
  }

  /** Every character of the joined text is a space or comes from one of the words. */
  lemma {:induction false} JoinSpaceChars(ws: seq<string>)
    ensures forall i :: 0 <= i < |JoinSpace(ws)| ==> JoinSpace(ws)[i] == ' ' || exists k :: 0 <= k < |ws| && JoinSpace(ws)[i] in ws[k]
    decreases |ws|
  {
    if |ws| >= 2 {
      var rest := JoinSpace(ws[1..]);
      JoinSpaceChars(ws[1..]);
      var r := JoinSpace(ws);
      assert r == ws[0] + " " + rest;
      forall i | 0 <= i < |r| && r[i] != ' '
        ensures exists k :: 0 <= k < |ws| && r[i] in ws[k]
      {
        if i < |ws[0]| {
          assert r[i] == ws[0][i];
        } else {
          var j := i - |ws[0]| - 1;
          assert r[i] == rest[j];
          var k :| 0 <= k < |ws[1..]| && rest[j] in ws[1..][k];
          assert ws[1..][k] == ws[k + 1];
        }
      }
    } else if |ws| == 1 {
      assert JoinSpace(ws) == ws[0];
    }
  }

  /** The leading run of a word followed by a space is exactly that word. */
  lemma {:induction false} WordLengthOfWord(w: string, tail: string)
    requires IsWord(w)
    requires |tail| == 0 || IsSpace(tail[0])
    ensures WordLength(w + tail) == |w|
    decreases |w|
  {
    var s := w + tail;
    if |w| == 1 {
      assert s[1..] == tail;
    } else {
      assert s[1..] == w[1..] + tail;
      WordLengthOfWord(w[1..], tail);
    }
  }

  /** A single word is one field. */
  lemma FieldsOfWord(w: string)
    requires IsWord(w)
    ensures Fields(w) == [w]
  {
    WordLengthOfWord(w, "");
    assert w + "" == w;
    assert w[|w|..] == "";
  }

  /** Text made of whitespace only has no fields. */
  lemma {:induction false} FieldsOfBlank(s: string)
    requires forall i :: 0 <= i < |s| ==> IsSpace(s[i])
    ensures Fields(s) == []
    decreases |s|
  {
    if |s| > 0 {
      FieldsOfBlank(s[1..]);
    }
  }

  /** The leading run is unaffected by what follows a space inside the text. */
  lemma {:induction false} WordLengthConcat(a: string, b: string)
    requires WordLength(a) < |a| || |b| == 0 || IsSpace(b[0])
    ensures WordLength(a + b) == WordLength(a)
    decreases |a|
  {
    var s := a + b;
    if |a| == 0 {
    } else if IsSpace(a[0]) {
    } else {
      assert s[1..] == a[1..] + b;
      WordLengthConcat(a[1..], b);
    }
  }

  /** Fields split at any whitespace character: the fields on either side, concatenated. */
  lemma {:induction false} FieldsSplit(a: string, c: char, b: string)
    requires IsSpace(c)
    ensures Fields(a + [c] + b) == Fields(a) + Fields(b)
    decreases |a|
  {
    var s := a + [c] + b;
    if |a| == 0 {
      assert s == [c] + b;
      assert s[1..] == b;
    } else if IsSpace(a[0]) {
      assert s[1..] == a[1..] + [c] + b;
      FieldsSplit(a[1..], c, b);
    } else {
      var n := WordLength(a);
      FieldsSplit(a[n..], c, b);
      FieldsWordStep(a, c, b, n);
    }
  }

  /** The leading word of `a` is the leading field of the concatenation, and the rest splits as assumed. */
  lemma FieldsWordStep(a: string, c: char, b: string, n: nat)
    requires IsSpace(c) && |a| > 0 && !IsSpace(a[0]) && n == WordLength(a)
    requires Fields(a[n..] + [c] + b) == Fields(a[n..]) + Fields(b)
    ensures Fields(a + [c] + b) == Fields(a) + Fields(b)
  {
    FieldsAfterWord(a, c, b, n);
    FieldsAtWord(a, n);
    calc {
      Fields(a + [c] + b);
      [a[..n]] + Fields(a[n..] + [c] + b);
      [a[..n]] + (Fields(a[n..]) + Fields(b));
      ([a[..n]] + Fields(a[n..])) + Fields(b);
      Fields(a) + Fields(b);
    }
  }

  /** The first field of `a + [c] + b` is the leading word of `a`. */
  lemma FieldsAfterWord(a: string, c: char, b: string, n: nat)
    requires IsSpace(c) && |a| > 0 && !IsSpace(a[0]) && n == WordLength(a)
    ensures Fields(a + [c] + b) == [a[..n]] + Fields(a[n..] + [c] + b)
  {
    var s := a + [c] + b;
    WordLengthConcat(a, [c] + b);
    assert s == a + ([c] + b);
    FieldsAtWord(s, n);
    assert s[..n] == a[..n];
    assert s[n..] == a[n..] + [c] + b;
  }

  /** The fields of a text that starts with a word: that word, then the fields after it. */
  lemma FieldsAtWord(s: string, n: nat)
    requires |s| > 0 && !IsSpace(s[0]) && n == WordLength(s)
    ensures Fields(s) == [s[..n]] + Fields(s[n..])
  {
  }

  /** Joining words with single spaces and splitting again gives back the words. */
  lemma {:induction false} FieldsOfJoin(ws: seq<string>)
    requires forall k :: 0 <= k < |ws| ==> IsWord(ws[k])
    ensures Fields(JoinSpace(ws)) == ws
    decreases |ws|
  {
    if |ws| == 0 {
    } else if |ws| == 1 {
      FieldsOfWord(ws[0]);
    } else {
      FieldsOfJoin(ws[1..]);
      FieldsSplit(ws[0], ' ', JoinSpace(ws[1..]));
      FieldsOfWord(ws[0]);
      assert ws[0] + " " + JoinSpace(ws[1..]) == ws[0] + [' '] + JoinSpace(ws[1..]);
      assert ws == [ws[0]] + ws[1..];
    }
  }
}

=== FILE: occurrence_mapper.dfy ===
/**
 * The occurrence mapper of characters.go (`CreateImage`, lines 33-70): split the
 * search term into terms, cut the word sequence into sections of `sectionSize`
 * consecutive words, mark each section in which some word equals some term, count
 * the matching positions and draw the image. Writing the file and signalling the
 * channel are left to the caller.
 */
module OccurrenceMapper {
  import opened GoStrings
  import opened Raster

  /** `ceil(n / size)` on integers: the number of sections needed to cover `n` words. */
  function Width(n: nat, size: nat): (w: nat)
    requires size >= 1
    ensures w * size >= n
    ensures w == 0 || (w - 1) * size < n
  {
    var w := (n + size - 1) / size;
    DivBounds(n + size - 1, size);
    w
  }

  /** The quotient of Euclidean division, bracketed by multiples of the divisor. */
  lemma DivBounds(m: nat, size: nat)
    requires size >= 1
    ensures 0 <= m / size
    ensures (m / size) * size <= m < (m / size) * size + size
  {
  }

  /** `Width` is the least section count whose sections cover all `n` words. */
  lemma WidthIsLeast(n: nat, size: nat, w: nat)
    requires size >= 1 && w * size >= n
    ensures Width(n, size) <= w
  {
    var c := Width(n, size);
    if c > w {
      MulMonotone(w, c - 1, size);
    }
  }

  lemma MulMonotone(a: nat, b: nat, size: nat)
    requires a <= b
    ensures a * size <= b * size
  {
  }

  /** Word `i` lies in section `i / size`, whose index range is `[s*size, (s+1)*size)`, and in no other. */
  lemma SectionOf(i: nat, size: nat, s: nat)
    requires size >= 1
    ensures s == i / size <==> s * size <= i < (s + 1) * size
  {
    var q := i / size;
    DivBounds(i, size);
    if s < q {
      MulMonotone(s + 1, q, size);
    } else if s > q {
      MulMonotone(q + 1, s, size);
    }
  }

  /** The write `usedInSection[section]` of characters.go:51 is in bounds for every word index. */
  lemma SectionInBounds(i: nat, n: nat, size: nat)
    requires size >= 1 && i < n
    ensures i / size < Width(n, size)
  {
    var s := i / size;
    SectionOf(i, size, s);
    var w := Width(n, size);
    if s >= w {
      MulMonotone(w, s, size);
    }
  }

  /** Some word with index in `[lo, hi)` equals one of the terms. */
  predicate MatchIn(words: seq<string>, terms: seq<string>, lo: int, hi: int) {
    exists i :: lo <= i < hi && 0 <= i < |words| && words[i] in terms
  }

  /** Some word of section `s`, the index range `[s*size, min((s+1)*size, |words|))`, equals some term. */
  predicate SectionUsed(words: seq<string>, terms: seq<string>, size: nat, s: int) {
    MatchIn(words, terms, s * size, (s + 1) * size)
  }

  /** The block map: entry `s` tells whether section `s` mentions one of the terms. */
  function BlockMap(words: seq<string>, terms: seq<string>, size: nat): (m: seq<bool>)
    requires size >= 1
    ensures |m| == Width(|words|, size)
  {
    seq(Width(|words|, size), s => SectionUsed(words, terms, size, s))
  }

  /** The number of positions whose word equals at least one term. */
  function Count(words: seq<string>, terms: seq<string>): (c: nat)
    ensures c <= |words|
    decreases |words|
  {
    if |words| == 0 then 0
    else Count(words[..|words| - 1], terms) + (if words[|words| - 1] in terms then 1 else 0)
  }

  /** The positions whose word equals some term. */
  function MatchPositions(words: seq<string>, terms: seq<string>): set<nat> {
    set i: nat | i < |words| && words[i] in terms
  }

  /** `Count` is the number of matching positions: a position counts once however many terms it equals. */
  lemma {:induction false} CountIsMatchPositions(words: seq<string>, terms: seq<string>)
    ensures Count(words, terms) == |MatchPositions(words, terms)|
    decreases |words|
  {
    if |words| > 0 {
      var n := |words| - 1;
      var prefix := words[..n];
      CountIsMatchPositions(prefix, terms);
      var before := MatchPositions(prefix, terms);
      assert n !in before;
      if words[n] in terms {
        assert MatchPositions(words, terms) == before + {n};
      } else {
        assert MatchPositions(words, terms) == before;
      }
    }
  }

  /** Only which terms occur matters: repeating or reordering terms changes neither result. */
  lemma TermsActAsSet(words: seq<string>, t1: seq<string>, t2: seq<string>, size: nat)
    requires size >= 1
    requires forall w :: w in t1 <==> w in t2
    ensures Count(words, t1) == Count(words, t2)
    ensures BlockMap(words, t1, size) == BlockMap(words, t2, size)
  {
    CountIsMatchPositions(words, t1);
    CountIsMatchPositions(words, t2);
    assert MatchPositions(words, t1) == MatchPositions(words, t2);
  }

  /** Some position matches exactly when the count is positive. */
  lemma {:induction false} CountPositive(words: seq<string>, terms: seq<string>)
    ensures Count(words, terms) > 0 <==> MatchIn(words, terms, 0, |words|)
    decreases |words|
  {
    if |words| > 0 {
      var n := |words| - 1;
      CountPositive(words[..n], terms);
      if MatchIn(words[..n], terms, 0, n) {
        var i :| 0 <= i < n && words[..n][i] in terms;
        assert words[i] in terms;
      }
      if MatchIn(words, terms, 0, |words|) && !(words[n] in terms) {
        var i :| 0 <= i < |words| && words[i] in terms;
        assert words[..n][i] in terms;
      }
    }
  }

  /** A matching word marks the section it lies in. */
  lemma MatchMarksSection(words: seq<string>, terms: seq<string>, size: nat, i: nat)
    requires size >= 1 && i < |words| && words[i] in terms
    ensures 0 <= i / size < |BlockMap(words, terms, size)|
    ensures BlockMap(words, terms, size)[i / size]
  {
    DivBounds(i, size);
    SectionOf(i, size, i / size);
    SectionInBounds(i, |words|, size);
  }

  lemma MatchInUnion(words: seq<string>, t1: seq<string>, t2: seq<string>, lo: int, hi: int)
    ensures MatchIn(words, t1 + t2, lo, hi) <==> MatchIn(words, t1, lo, hi) || MatchIn(words, t2, lo, hi)
  {
    if MatchIn(words, t1 + t2, lo, hi) {
      var i :| lo <= i < hi && 0 <= i < |words| && words[i] in t1 + t2;
      assert words[i] in t1 || words[i] in t2;
    }
    if MatchIn(words, t1, lo, hi) {
      var i :| lo <= i < hi && 0 <= i < |words| && words[i] in t1;
      assert words[i] in t1 + t2;
    }
    if MatchIn(words, t2, lo, hi) {
      var i :| lo <= i < hi && 0 <= i < |words| && words[i] in t2;
      assert words[i] in t1 + t2;
    }
  }

  /**
   * A search term of several names marks a section when any one of the names does:
   * the block map of the joined terms is the union of the block maps of the parts.
   */
  lemma BlockMapUnion(words: seq<string>, t1: seq<string>, t2: seq<string>, size: nat)
    requires size >= 1
    ensures forall s :: 0 <= s < Width(|words|, size) ==>
      BlockMap(words, t1 + t2, size)[s] == (BlockMap(words, t1, size)[s] || BlockMap(words, t2, size)[s])
  {
    forall s | 0 <= s < Width(|words|, size)
      ensures BlockMap(words, t1 + t2, size)[s] == (BlockMap(words, t1, size)[s] || BlockMap(words, t2, size)[s])
    {
      MatchInUnion(words, t1, t2, s * size, (s + 1) * size);
    }
  }

  /** A marked section holds a matching word. */
  lemma UsedSectionHasMatch(words: seq<string>, terms: seq<string>, size: nat, s: int)
    ensures SectionUsed(words, terms, size, s) ==> MatchIn(words, terms, 0, |words|)
  {
    if SectionUsed(words, terms, size, s) {
      var i :| s * size <= i < (s + 1) * size && 0 <= i < |words| && words[i] in terms;
      assert 0 <= i < |words| && words[i] in terms;
    }
  }

  /** No match is counted exactly when every section is left white. */
  lemma CountZeroIffBlank(words: seq<string>, terms: seq<string>, size: nat)
    requires size >= 1
    ensures Count(words, terms) == 0 <==> forall s :: 0 <= s < |BlockMap(words, terms, size)| ==> !BlockMap(words, terms, size)[s]
  {
    CountPositive(words, terms);
    var m := BlockMap(words, terms, size);
    if Count(words, terms) != 0 {
      var i :| 0 <= i < |words| && words[i] in terms;
      MatchMarksSection(words, terms, size, i);
      var s := i / size;
      assert 0 <= s < |m| && m[s];
    } else {
      forall s | 0 <= s < |m|
        ensures !m[s]
      {
        UsedSectionHasMatch(words, terms, size, s);
      }
    }
  }

  /** With the section size equal to the word count the whole text is one section. */
  lemma WholeTextOneSection(words: seq<string>, terms: seq<string>)
    requires |words| >= 1
    ensures BlockMap(words, terms, |words|) == [Count(words, terms) > 0]
  {
    var m := BlockMap(words, terms, |words|);
    assert |m| == 1 by {
      WidthIsLeast(|words|, |words|, 1);
    }
    CountZeroIffBlank(words, terms, |words|);
  }

  /** A section's entry depends only on the words inside that section. */
  lemma SectionLocality(w1: seq<string>, w2: seq<string>, terms: seq<string>, size: nat, s: nat)
    requires size >= 1 && |w1| == |w2| && s < Width(|w1|, size)
    requires forall i :: s * size <= i < (s + 1) * size && 0 <= i < |w1| ==> w1[i] == w2[i]
    ensures BlockMap(w1, terms, size)[s] == BlockMap(w2, terms, size)[s]
  {
    if BlockMap(w1, terms, size)[s] {
      var i :| s * size <= i < (s + 1) * size && 0 <= i < |w1| && w1[i] in terms;
      assert w2[i] in terms;
    }
    if BlockMap(w2, terms, size)[s] {
      var i :| s * size <= i < (s + 1) * size && 0 <= i < |w2| && w2[i] in terms;
      assert w1[i] in terms;
    }
  }

  /** The inner loop of characters.go:49-55: stop at the first term equal to the word. */
  method ContainsTerm(word: string, terms: seq<string>) returns (found: bool)
    ensures found <==> word in terms
  {
    found := false;
    var j := 0;
    while j < |terms|
      invariant 0 <= j <= |terms|
      invariant word !in terms[..j]
    {
      if word == terms[j] {
        found := true;
        break;
      }
      assert terms[..j + 1] == terms[..j] + [terms[j]];
      j := j + 1;
    }
  }

  /** Prefixes of the word sequence grow one word at a time. */
  lemma MatchInStep(words: seq<string>, terms: seq<string>, lo: int, hi: int, k: nat)
    requires k < |words|
    ensures MatchIn(words[..k + 1], terms, lo, hi) <==> MatchIn(words[..k], terms, lo, hi) || (lo <= k < hi && words[k] in terms)
  {
    if MatchIn(words[..k + 1], terms, lo, hi) {
      var i :| lo <= i < hi && 0 <= i < k + 1 && words[..k + 1][i] in terms;
      if i < k {
        assert words[..k][i] in terms;
      }
    }
    if MatchIn(words[..k], terms, lo, hi) {
      var i :| lo <= i < hi && 0 <= i < k && words[..k][i] in terms;
      assert words[..k + 1][i] in terms;
    }
    if lo <= k < hi && words[k] in terms {
      assert words[..k + 1][k] in terms;
    }
  }

  /** `used` holds the block map of the first `k` words: entry `s` is set exactly when section `s` has a match among them. */
  predicate MarksPrefix(used: seq<bool>, words: seq<string>, terms: seq<string>, size: nat, k: nat)
    requires k <= |words|
  {
    forall s :: 0 <= s < |used| ==> (used[s] <==> SectionUsed(words[..k], terms, size, s))
  }

  /** One iteration of the scan keeps the marks and the count in step with the words read. */
  lemma ScanStep(words: seq<string>, terms: seq<string>, size: nat, k: nat, used: seq<bool>)
    requires size >= 1 && k < |words| && |used| == Width(|words|, size)
    requires MarksPrefix(used, words, terms, size, k)
    ensures k / size < |used|
    ensures MarksPrefix(if words[k] in terms then used[k / size := true] else used, words, terms, size, k + 1)
    ensures Count(words[..k + 1], terms) == Count(words[..k], terms) + (if words[k] in terms then 1 else 0)
  {
    SectionInBounds(k, |words|, size);
    var next := if words[k] in terms then used[k / size := true] else used;
    forall s | 0 <= s < |next|
      ensures next[s] <==> SectionUsed(words[..k + 1], terms, size, s)
    {
      MatchInStep(words, terms, s * size, (s + 1) * size, k);
      SectionOf(k, size, s);
    }
    CountStep(words, terms, k);
  }

  /** Counting one more word adds one exactly when that word matches. */
  lemma CountStep(words: seq<string>, terms: seq<string>, k: nat)
    requires k < |words|
    ensures Count(words[..k + 1], terms) == Count(words[..k], terms) + (if words[k] in terms then 1 else 0)
  {
    assert words[..k + 1][..k] == words[..k];
  }

  /** Before any word is read no section is marked. */
  lemma MarksNothing(used: seq<bool>, words: seq<string>, terms: seq<string>, size: nat)
    requires forall s :: 0 <= s < |used| ==> !used[s]
    ensures MarksPrefix(used, words, terms, size, 0)
  {
  }

  /** Marks for the whole word sequence are the block map. */
  lemma MarksAll(used: seq<bool>, words: seq<string>, terms: seq<string>, size: nat)
    requires size >= 1 && |used| == Width(|words|, size)
    requires MarksPrefix(used, words, terms, size, |words|)
    ensures used == BlockMap(words, terms, size)
  {
    assert words[..|words|] == words;
  }

  /**
   * The scan of characters.go:43-56: for every word, find its section and, when it
   * equals a term, mark the section and count the word once.
   */
  method Scan(words: seq<string>, terms: seq<string>, sectionSize: nat) returns (usedInSection: seq<bool>, usedCount: nat)
    requires sectionSize >= 1
    ensures usedInSection == BlockMap(words, terms, sectionSize)
    ensures usedCount == Count(words, terms)
  {
    var width := Width(|words|, sectionSize);
    usedInSection := seq(width, _ => false);
    MarksNothing(usedInSection, words, terms, sectionSize);
    usedCount := 0;
    for index := 0 to |words|
      invariant |usedInSection| == width
      invariant usedCount == Count(words[..index], terms)
      invariant MarksPrefix(usedInSection, words, terms, sectionSize, index)
    {
      var section := index / sectionSize;
      var found := ContainsTerm(words[index], terms);
      ScanStep(words, terms, sectionSize, index, usedInSection);
      if found {
        usedInSection := usedInSection[section := true];
        usedCount := usedCount + 1;
      }
    }
    assert words[..|words|] == words;
    MarksAll(usedInSection, words, terms, sectionSize);
  }

  /** What one character query produces: its terms, block map, match count, image and file name. */
  datatype Occurrences = Occurrences(
    searchTerm: string,
    terms: seq<string>,
    usedInSection: seq<bool>,
    usedCount: nat,
    image: Image,
    fileName: string)

  /** `CreateImage` without the file write and the channel send. */
  function CreateImage(words: seq<string>, searchTerm: string, sectionSize: nat): (r: Occurrences)
    requires sectionSize >= 1
    ensures r.terms == Fields(searchTerm)
    ensures |r.usedInSection| == Width(|words|, sectionSize)
    ensures r.image.width == Width(|words|, sectionSize) && r.image.height == ImageHeight
    ensures r.usedCount == 0 <==> forall s :: 0 <= s < |r.usedInSection| ==> !r.usedInSection[s]
    ensures WellFormed(r.image) && ReadBlockMap(r.image) == r.usedInSection
    ensures ImageFileName(searchTerm) == r.fileName
  {
    var terms := Fields(searchTerm);
    var used := BlockMap(words, terms, sectionSize);
    CountZeroIffBlank(words, terms, sectionSize);
    ReadRenderRoundTrip(used);
    Occurrences(searchTerm, terms, used, Count(words, terms), Render(used), ImageFileName(searchTerm))
  }

  /** The whole of `CreateImage` as the source runs it: split the term, scan, then paint. */
  method RunCreateImage(words: seq<string>, searchTerm: string, sectionSize: nat) returns (r: Occurrences)
    requires sectionSize >= 1
    ensures r == CreateImage(words, searchTerm, sectionSize)
  {
    var terms := Fields(searchTerm);
    var usedInSection, usedCount := Scan(words, terms, sectionSize);
    var image := Paint(usedInSection);
    r := Occurrences(searchTerm, terms, usedInSection, usedCount, image, ImageFileName(searchTerm));
  }

  /** The worked example: words a b c d, sections of 2, term b. */
  lemma SmallExample()
    ensures BlockMap(["a", "b", "c", "d"], ["b"], 2) == [true, false]
    ensures Count(["a", "b", "c", "d"], ["b"]) == 1
  {
    var words := ["a", "b", "c", "d"];
    assert Width(4, 2) == 2;
    assert words[1] in ["b"];
    assert MatchIn(words, ["b"], 0, 2);
    assert !MatchIn(words, ["b"], 2, 4) by {
      assert words[2] != "b" && words[3] != "b";
    }
    assert words[..3] == ["a", "b", "c"];
    assert words[..3][..2] == ["a", "b"];
    assert words[..3][..2][..1] == ["a"];
    assert ["a"][..0] == [];
    assert Count(["a"], ["b"]) == 0;
    assert Count(["a", "b"], ["b"]) == 1;
    assert Count(["a", "b", "c"], ["b"]) == 1;
  }
}

=== FILE: raster.dfy ===
/**
 * The occurrence image of characters.go: an RGBA raster 20 pixels high with one
 * column per section, black where the section mentions the character and white
 * elsewhere, and the file name it is saved under.
 */
module Raster {

  type Byte = x: int | 0 <= x < 256

  /** One pixel, as Go's `color.RGBA`. */
  datatype Rgba = Rgba(red: Byte, green: Byte, blue: Byte, alpha: Byte)

  /** The zero value `image.NewRGBA` fills a fresh raster with. */
  const Transparent := Rgba(0, 0, 0, 0)
  const White := Rgba(255, 255, 255, 255)
  const Black := Rgba(0, 0, 0, 255)

  /** The fixed height of every occurrence image. */
  const ImageHeight: nat := 20

  /** A raster stored row by row: `rows[y][x]` is the pixel in column x of row y. */
  datatype Image = Image(width: nat, height: nat, rows: seq<seq<Rgba>>)

  /** The rows and columns agree with the declared dimensions. */
  predicate WellFormed(img: Image) {
    |img.rows| == img.height && forall y :: 0 <= y < img.height ==> |img.rows[y]| == img.width
  }

  function At(img: Image, x: nat, y: nat): Rgba
    requires WellFormed(img) && x < img.width && y < img.height
  {
    img.rows[y][x]
  }

  /** The colour of a column: start from opaque white and clear red, green and blue when the section is used. */
  function ColumnColour(used: bool): (c: Rgba)
    ensures c.alpha == 255
    ensures used <==> c == Black
    ensures !used <==> c == White
  {
    var colour := White;
    if used then colour.(red := 0, green := 0, blue := 0) else colour
  }

  /** The image drawn for a block map: one column per section, every row alike. */
  function Render(usedInSection: seq<bool>): (img: Image)
    ensures WellFormed(img)
    ensures img.width == |usedInSection| && img.height == ImageHeight
  {
    Image(|usedInSection|, ImageHeight,
      seq(ImageHeight, y => seq(|usedInSection|, x requires 0 <= x < |usedInSection| => ColumnColour(usedInSection[x]))))
  }

  /** Every column of a rendered image is uniform: black exactly where the section is used, white elsewhere. */
  lemma RenderColumns(usedInSection: seq<bool>, x: nat, y: nat)
    requires x < |usedInSection| && y < ImageHeight
    ensures At(Render(usedInSection), x, y) == At(Render(usedInSection), x, 0)
    ensures At(Render(usedInSection), x, y) == Black <==> usedInSection[x]
    ensures At(Render(usedInSection), x, y) == White <==> !usedInSection[x]
  {
  }

  /** Read a block map back from the first row of an image: a column is used when it is black. */
  function ReadBlockMap(img: Image): (used: seq<bool>)
    requires WellFormed(img) && img.height > 0
    ensures |used| == img.width
  {
    seq(img.width, x requires 0 <= x < img.width => img.rows[0][x] == Black)
  }

  /** Rendering loses nothing: the block map can be read back from the image. */
  lemma ReadRenderRoundTrip(usedInSection: seq<bool>)
    ensures ReadBlockMap(Render(usedInSection)) == usedInSection
  {
  }

  /**
   * The drawing loop of characters.go:60-70: a fresh all-transparent raster, then for
   * each column x the colour is chosen and written to every row.
   */
  method Paint(usedInSection: seq<bool>) returns (img: Image)
    ensures img == Render(usedInSection)
  {
    var width := |usedInSection|;
    var canvas := new Rgba[ImageHeight, width]((y, x) => Transparent);
    for x := 0 to width
      invariant forall y, x' :: 0 <= y < ImageHeight && 0 <= x' < width ==>
        canvas[y, x'] == if x' < x then ColumnColour(usedInSection[x']) else Transparent
    {
      var colour := White;
      if usedInSection[x] {
        colour := colour.(red := 0, green := 0, blue := 0);
      }
      for y := 0 to ImageHeight
        invariant forall y', x' :: 0 <= y' < ImageHeight && 0 <= x' < width ==>
          canvas[y', x'] == if x' < x || (x' == x && y' < y) then ColumnColour(usedInSection[x']) else Transparent
      {
        canvas[y, x] := colour;
      }
    }
    var rows: seq<seq<Rgba>> := [];
    for y := 0 to ImageHeight
      invariant |rows| == y
      invariant forall y' :: 0 <= y' < y ==> rows[y'] == seq(width, x requires 0 <= x < width => ColumnColour(usedInSection[x]))
    {
      var row: seq<Rgba> := [];
      for x := 0 to width
        invariant |row| == x
        invariant forall x' :: 0 <= x' < x ==> row[x'] == ColumnColour(usedInSection[x'])
      {
        row := row + [canvas[y, x]];
      }
      rows := rows + [row];
    }
    img := Image(width, ImageHeight, rows);
  }

  /** `SaveImage(searchTerm + ".png", ...)`: the name an image is written under. */
  function ImageFileName(stem: string): (name: string)
    ensures |name| == |stem| + 4
    ensures name[..|stem|] == stem && name[|stem|..] == ".png"
  {
    stem + ".png"
  }

  /** Different search terms are written to different files, so images for different search terms never overwrite each other. */
  lemma ImageFileNameInjective(a: string, b: string)
    requires ImageFileName(a) == ImageFileName(b)
    ensures a == b
  {
    assert a == ImageFileName(a)[..|a|];
  }
}

=== FILE: summary.dfy ===
/**
 * The analysis page of characters.go (`CreateHTML`): a document named after the
 * book, with one table row per character holding the character's name and a link
 * to its occurrence image. The file write is left out; the page is returned.
 */
module Summary {
  import opened Wrappers
  import opened GoStrings
  import opened Raster

  const TextExtension: string := ".txt"
  const PageExtension: string := ".html"

  /** Every ".txt" is cut out of the file name, wherever it occurs, in one left-to-right pass. */
  function BookName(filename: string): (book: string)
    ensures |book| <= |filename|
  {
    ReplaceShrinks(filename, TextExtension, "");
    Replace(filename, TextExtension, "")
  }

  /** The name the page is written under. */
  function DocumentName(filename: string): (name: string)
    ensures |name| == |BookName(filename)| + 5
    ensures name[..|BookName(filename)|] == BookName(filename)
    ensures name[|BookName(filename)|..] == PageExtension
  {
    BookName(filename) + PageExtension
  }

  const HeadStart: string := "<!DOCTYPE html><html><head><style>body { font-family:sans-serif; }</style><title>"
  const TitleEnd: string := "</title></head><body><h1>"
  const TableStart: string := " analysis</h1><table><tr><th>Character</th><th>Mentioned</th></tr>"
  const Footer: string := "</table></body></html>"
  const RowStart: string := "<tr><td>"
  const CellBreak: string := "</td><td><img src='"
  const RowEnd: string := "' /></td></tr>"

  /** The page head: title, heading and the table's header row. */
  function Header(book: string): string {
    HeadStart + book + TitleEnd + book + TableStart
  }

  /** One row of the table: the name shown and the image it links. */
  datatype Entry = Entry(name: string, src: string)

  function Row(e: Entry): string {
    RowStart + e.name + CellBreak + e.src + RowEnd
  }

  /** The pieces joined in order, as repeated `html = html + piece` leaves them. */
  function Concat(pieces: seq<string>): string {
    if |pieces| == 0 then ""
    else Concat(pieces[..|pieces| - 1]) + pieces[|pieces| - 1]
  }

  /** The row of each entry, in order. */
  function RowTexts(entries: seq<Entry>): (rows: seq<string>)
    ensures |rows| == |entries|
  {
    seq(|entries|, k requires 0 <= k < |entries| => Row(entries[k]))
  }

  /** The rows appended one entry at a time, in order, as the loop of `CreateHTML` does. */
  function Rows(entries: seq<Entry>): string {
    Concat(RowTexts(entries))
  }

  /**
   * How a row's image link is spelt. The source links `character + ".png"` with the
   * name as typed (`AsTyped`); the image itself is saved under the lower-cased name,
   * which `Lowercased` links instead.
   */
  datatype LinkStyle = AsTyped | Lowercased

  function ImageLink(character: string, style: LinkStyle): string {
    ImageFileName(if style == Lowercased then ToLower(character) else character)
  }

  /** The table entries for the characters, in argument order. */
  function Entries(characters: seq<string>, style: LinkStyle): (es: seq<Entry>)
    ensures |es| == |characters|
    ensures forall k :: 0 <= k < |es| ==> es[k].name == characters[k]
    ensures forall k :: 0 <= k < |es| ==> es[k].src == ImageLink(characters[k], style)
  {
    seq(|characters|, k requires 0 <= k < |characters| => Entry(characters[k], ImageLink(characters[k], style)))
  }

  /** A generated page: its file name and its text. */
  datatype Page = Page(name: string, html: string)

  function RenderPage(filename: string, characters: seq<string>, style: LinkStyle): (p: Page)
    ensures p.name == DocumentName(filename)
  {
    Page(DocumentName(filename), Header(BookName(filename)) + Rows(Entries(characters, style)) + Footer)
  }

  /** `CreateHTML` as written: each image link uses the character as typed. */
  function CreateHtml(filename: string, characters: seq<string>): (p: Page)
    ensures p.name == DocumentName(filename)
  {
    RenderPage(filename, characters, AsTyped)
  }

  /** `CreateHTML` with each link naming the file the image is actually saved under. */
  function CreateHtmlLinked(filename: string, characters: seq<string>): (p: Page)
    ensures p.name == DocumentName(filename)
  {
    RenderPage(filename, characters, Lowercased)
  }

  lemma {:induction false} ConcatAppend(a: seq<string>, b: seq<string>)
    ensures Concat(a + b) == Concat(a) + Concat(b)
    decreases |b|
  {
    if |b| == 0 {
      assert a + b == a;
    } else {
      ConcatAppend(a, b[..|b| - 1]);
      ConcatAppendStep(a, b);
    }
  }

  /** Adding the last piece of `b` to both sides of the concatenation law for the shorter `b`. */
  lemma ConcatAppendStep(a: seq<string>, b: seq<string>)
    requires |b| > 0
    requires Concat(a + b[..|b| - 1]) == Concat(a) + Concat(b[..|b| - 1])
    ensures Concat(a + b) == Concat(a) + Concat(b)
  {
    var b', x := b[..|b| - 1], b[|b| - 1];
    assert (a + b)[..|a + b| - 1] == a + b';
    assert (a + b)[|a + b| - 1] == x;
    assert Concat(a + b) == Concat(a + b') + x;
    assert Concat(b) == Concat(b') + x;
    AppendAssoc(Concat(a), Concat(b'), x);
  }

  /** Appending rows for two lists one after the other gives the rows of the joined list. */
  lemma RowsConcat(a: seq<Entry>, b: seq<Entry>)
    ensures Rows(a + b) == Rows(a) + Rows(b)
  {
    assert RowTexts(a + b) == RowTexts(a) + RowTexts(b);
    ConcatAppend(RowTexts(a), RowTexts(b));
  }

  lemma ConcatSingle(x: string)
    ensures Concat([x]) == x
  {
    assert [x][..0] == [];
  }

  lemma RowsSingle(e: Entry)
    ensures Rows([e]) == Row(e)
  {
    assert RowTexts([e]) == [Row(e)];
    ConcatSingle(Row(e));
  }

  /** Splitting the entries at any position splits the rows there. */
  lemma RowsAround(entries: seq<Entry>, k: nat)
    requires k < |entries|
    ensures Rows(entries) == Rows(entries[..k]) + Row(entries[k]) + Rows(entries[k + 1..])
  {
    var before := entries[..k];
    var after := entries[k + 1..];
    assert entries == (before + [entries[k]]) + after;
    RowsConcat(before + [entries[k]], after);
    RowsConcat(before, [entries[k]]);
    RowsSingle(entries[k]);
  }

  /** The row of the k-th character, linking its image, sits between the rows of those before and after it. */
  lemma RowOrder(filename: string, characters: seq<string>, style: LinkStyle, k: nat)
    requires k < |characters|
    ensures RenderPage(filename, characters, style).html ==
      Header(BookName(filename)) + Rows(Entries(characters, style)[..k])
        + Row(Entry(characters[k], ImageLink(characters[k], style))) + Rows(Entries(characters, style)[k + 1..]) + Footer
  {
    var es := Entries(characters, style);
    var h, x, r, y := Header(BookName(filename)), Rows(es[..k]), Row(es[k]), Rows(es[k + 1..]);
    assert es[k] == Entry(characters[k], ImageLink(characters[k], style));
    calc {
      RenderPage(filename, characters, style).html;
      h + Rows(es) + Footer;
      { RowsAround(es, k); }
      h + (x + r + y) + Footer;
      h + x + r + y + Footer;
    }
  }

  /** With no characters the table has its header row only. */
  lemma NoCharacters(filename: string, style: LinkStyle)
    ensures RenderPage(filename, [], style).html == Header(BookName(filename)) + Footer
  {
    assert Entries([], style) == [];
  }

  /** The prefix of `s` before the first `stop`. */
  function TakeUntil(s: string, stop: char): (r: string)
    ensures |r| <= |s| && r == s[..|r|]
    ensures stop !in r
  {
    if |s| == 0 || s[0] == stop then "" else [s[0]] + TakeUntil(s[1..], stop)
  }

  lemma {:induction false} TakeUntilOf(c: string, rest: string, stop: char)
    requires stop !in c && |rest| > 0 && rest[0] == stop
    ensures TakeUntil(c + rest, stop) == c
  {
    if |c| > 0 {
      assert (c + rest)[1..] == c[1..] + rest;
      TakeUntilOf(c[1..], rest, stop);
    }
  }

  /** An entry that can be read back from its row: the name opens no tag and the link does not close its quote. */
  predicate PlainEntry(e: Entry) {
    '<' !in e.name && '\'' !in e.src
  }

  /** Read one row from the front of `body`: the name up to the next tag, the link up to the closing quote. */
  function ReadRow(body: string): (r: Option<Entry>)
    ensures r.Some? ==> |Row(r.value)| <= |body| && body[..|Row(r.value)|] == Row(r.value)
  {
    if |body| < |RowStart| || body[..|RowStart|] != RowStart then None
    else
      var name := TakeUntil(body[|RowStart|..], '<');
      var at := |RowStart| + |name| + |CellBreak|;
      if at > |body| then None
      else
        var e := Entry(name, TakeUntil(body[at..], '\''));
        if |Row(e)| <= |body| && body[..|Row(e)|] == Row(e) then Some(e) else None
  }

  /** Read the entries back from the rows of a table, stopping at the first text that is not a row. */
  function ReadRows(body: string): seq<Entry>
    decreases |body|
  {
    match ReadRow(body)
    case None => []
    case Some(e) => [e] + ReadRows(body[|Row(e)|..])
  }

  /** Read the entries back from a page, given the file name of the book. */
  function ReadPage(filename: string, html: string): Option<seq<Entry>> {
    var header := Header(BookName(filename));
    if |header| + |Footer| <= |html| && html[..|header|] == header && html[|html| - |Footer|..] == Footer
    then Some(ReadRows(html[|header|..|html| - |Footer|]))
    else None
  }

  lemma ReadRowOf(e: Entry, rest: string)
    requires PlainEntry(e)
    ensures ReadRow(Row(e) + rest) == Some(e)
  {
    var body := Row(e) + rest;
    assert body[..|RowStart|] == RowStart;
    assert body[|RowStart|..] == e.name + (CellBreak + e.src + RowEnd + rest);
    assert body[|RowStart| + |e.name| + |CellBreak|..] == e.src + (RowEnd + rest);
    assert body[..|Row(e)|] == Row(e);
    assert CellBreak[0] == '<' && RowEnd[0] == '\'';
    TakeUntilOf(e.name, CellBreak + e.src + RowEnd + rest, '<');
    TakeUntilOf(e.src, RowEnd + rest, '\'');
  }

  lemma ReadRowStep(e: Entry, rest: string)
    requires PlainEntry(e)
    ensures ReadRows(Row(e) + rest) == [e] + ReadRows(rest)
  {
    ReadRowOf(e, rest);
    assert (Row(e) + rest)[|Row(e)|..] == rest;
  }

  /** The rows of plain entries read back as exactly those entries, in order. */
  lemma {:induction false} ReadRowsRoundTrip(entries: seq<Entry>)
    requires forall k :: 0 <= k < |entries| ==> PlainEntry(entries[k])
    ensures ReadRows(Rows(entries)) == entries
    decreases |entries|
  {
    if |entries| > 0 {
      var more := entries[1..];
      assert entries == [entries[0]] + more;
      RowsConcat([entries[0]], more);
      RowsSingle(entries[0]);
      ReadRowStep(entries[0], Rows(more));
      ReadRowsRoundTrip(more);
    }
  }

  /** A name that can be read back from the page: no tag opens in it and no quote closes its link. */
  predicate PlainName(character: string) {
    '<' !in character && '\'' !in character
  }

  lemma PlainLink(character: string, style: LinkStyle)
    requires PlainName(character)
    ensures '\'' !in ImageLink(character, style)
  {
    if style == Lowercased {
      var lower := ToLower(character);
      forall i | 0 <= i < |lower|
        ensures lower[i] != '\''
      {
        assert character[i] != '\'' by {
          assert character[i] in character;
        }
      }
    }
  }

  /**
   * A page lists exactly the characters it was made from, in order, each with the link
   * its style gives it, whatever the book is called.
   */
  lemma PageRoundTrip(filename: string, characters: seq<string>, style: LinkStyle)
    requires forall k :: 0 <= k < |characters| ==> PlainName(characters[k])
    ensures ReadPage(filename, RenderPage(filename, characters, style).html) == Some(Entries(characters, style))
  {
    var es := Entries(characters, style);
    forall k | 0 <= k < |es|
      ensures PlainEntry(es[k])
    {
      PlainLink(characters[k], style);
    }
    var header := Header(BookName(filename));
    var body := Rows(es);
    var html := header + body + Footer;
    assert html[..|header|] == header;
    assert html[|html| - |Footer|..] == Footer;
    assert html[|header|..|html| - |Footer|] == body;
    ReadRowsRoundTrip(es);
  }

  /** A file name without a '.' is the book's name as it stands. */
  lemma BookNameWithoutDot(filename: string)
    requires TextExtension[0] !in filename
    ensures BookName(filename) == filename
  {
    ReplaceAbsent(filename, TextExtension, "");
  }

  /** A file name "<stem>.txt" with no other '.' names the book "<stem>". */
  lemma BookNameStripsExtension(stem: string)
    requires TextExtension[0] !in stem
    ensures BookName(stem + TextExtension) == stem
  {
    ReplaceCleanPrefix(stem, TextExtension, TextExtension, "");
    ExtensionFirst("");
    assert TextExtension + "" == TextExtension;
  }

  /** Replace drops a leading ".txt" and carries on with the rest. */
  lemma ExtensionFirst(rest: string)
    ensures Replace(TextExtension + rest, TextExtension, "") == Replace(rest, TextExtension, "")
  {
    var s := TextExtension + rest;
    assert s[..|TextExtension|] == TextExtension;
    assert s[|TextExtension|..] == rest;
  }

  /** Not only the extension goes: a ".txt" inside the name is removed as well. */
  lemma BookNameRemovesEveryExtension(x: string, y: string)
    requires TextExtension[0] !in x && TextExtension[0] !in y
    ensures BookName(x + TextExtension + y + TextExtension) == x + y
  {
    assert x + TextExtension + y + TextExtension == x + (TextExtension + (y + TextExtension));
    ReplaceCleanPrefix(x, TextExtension + (y + TextExtension), TextExtension, "");
    ExtensionFirst(y + TextExtension);
    BookNameStripsExtension(y);
  }

  /** The two link styles agree exactly when lower-casing leaves the name as it is. */
  lemma LinkStylesAgree(character: string)
    ensures ImageLink(character, AsTyped) == ImageLink(character, Lowercased) <==>
      forall i :: 0 <= i < |character| ==> !IsUpper(character[i])
  {
    if ImageLink(character, AsTyped) == ImageLink(character, Lowercased) {
      ImageFileNameInjective(character, ToLower(character));
    } else if forall i :: 0 <= i < |character| ==> !IsUpper(character[i]) {
      ToLowerNoUpper(character);
    }
  }

  /** Two rows for the same name are equal only when they link the same image. */
  lemma RowInjective(e1: Entry, e2: Entry)
    requires e1.name == e2.name && Row(e1) == Row(e2)
    ensures e1 == e2
  {
    var at := |RowStart| + |e1.name| + |CellBreak|;
    assert Row(e1)[at..at + |e1.src|] == e1.src;
    assert Row(e2)[at..at + |e2.src|] == e2.src;
  }

  /** A page made for one character. */
  lemma SingleCharacterPage(filename: string, c: string, style: LinkStyle)
    ensures RenderPage(filename, [c], style).html == Header(BookName(filename)) + Row(Entry(c, ImageLink(c, style))) + Footer
  {
    assert Entries([c], style) == [Entry(c, ImageLink(c, style))];
    RowsSingle(Entry(c, ImageLink(c, style)));
  }

  /** A capitalised name, as typed on the command line, links an image that is never written. */
  lemma CapitalisedLinkMisses(filename: string, character: string, i: nat)
    requires i < |character| && IsUpper(character[i])
    ensures ImageLink(character, AsTyped) != ImageFileName(ToLower(character))
    ensures CreateHtml(filename, [character]).html != CreateHtmlLinked(filename, [character]).html
  {
    LinkStylesAgree(character);
    var header := Header(BookName(filename));
    var rowA := Row(Entry(character, ImageLink(character, AsTyped)));
    var rowL := Row(Entry(character, ImageLink(character, Lowercased)));
    SingleCharacterPage(filename, character, AsTyped);
    SingleCharacterPage(filename, character, Lowercased);
    var htmlA := header + rowA + Footer;
    var htmlL := header + rowL + Footer;
    if htmlA == htmlL {
      assert htmlA[|header|..|htmlA| - |Footer|] == rowA;
      assert htmlL[|header|..|htmlL| - |Footer|] == rowL;
      RowInjective(Entry(character, ImageLink(character, AsTyped)), Entry(character, ImageLink(character, Lowercased)));
    }
  }
}

=== FILE: tokenizer.dfy ===
/**
 * The tokenizer of characters.go: lower-case the book, drop every possessive "'s",
 * delete everything but ASCII letters, digits, spaces and hyphens, then split into
 * words with `strings.Fields`.
 */
module Tokenizer {
  import opened GoStrings

  /** The characters the pattern `[^a-zA-Z0-9 -]` does not match, i.e. the ones kept. */
  predicate Kept(c: char) {
    'a' <= c <= 'z' || 'A' <= c <= 'Z' || '0' <= c <= '9' || c == ' ' || c == '-'
  }

  /** The characters a token can be made of. */
  predicate TokenChar(c: char) {
    'a' <= c <= 'z' || '0' <= c <= '9' || c == '-'
  }

  /** The possessive marker removed before punctuation is stripped. */
  const Possessive: string := "'s"

  /** `RemovePunctuation`: delete every character outside `[a-zA-Z0-9 -]`, keeping the rest in order. */
  function RemovePunctuation(s: string): (r: string)
    ensures |r| <= |s|
    ensures forall i :: 0 <= i < |r| ==> Kept(r[i])
    ensures forall c :: c in r ==> c in s
    ensures (forall i :: 0 <= i < |s| ==> Kept(s[i])) ==> r == s
    decreases |s|
  {
    if |s| == 0 then ""
    else
      var rest := RemovePunctuation(s[1..]);
      assert forall c :: c in s[1..] ==> c in s;
      assert s == [s[0]] + s[1..];
      (if Kept(s[0]) then [s[0]] else "") + rest
  }

  /** `r` can be obtained from `s` by deleting characters. */
  ghost predicate SubsequenceOf(r: string, s: string)
    decreases |s|
  {
    if |r| == 0 then true
    else if |s| == 0 then false
    else if r[0] == s[0] then SubsequenceOf(r[1..], s[1..])
    else SubsequenceOf(r, s[1..])
  }

  /** The filter keeps the surviving characters in their original order. */
  lemma {:induction false} RemovePunctuationIsSubsequence(s: string)
    ensures SubsequenceOf(RemovePunctuation(s), s)
    decreases |s|
  {
    if |s| > 0 {
      RemovePunctuationIsSubsequence(s[1..]);
      var rest := RemovePunctuation(s[1..]);
      if Kept(s[0]) {
        assert RemovePunctuation(s) == [s[0]] + rest;
        assert ([s[0]] + rest)[1..] == rest;
      } else {
        assert RemovePunctuation(s) == rest;
        SubsequenceSkip(rest, s);
      }
    }
  }

  /** Dropping the head of the longer sequence keeps a subsequence a subsequence. */
  lemma {:induction false} SubsequenceSkip(r: string, s: string)
    requires |s| > 0 && SubsequenceOf(r, s[1..])
    ensures SubsequenceOf(r, s)
    decreases |s|, 0
  {
    if |r| > 0 && r[0] == s[0] {
      // Matching the first character greedily never loses a later embedding.
      SubsequenceTail(r, s[1..]);
    }
  }

  /** A subsequence stays one after losing its first character. */
  lemma {:induction false} SubsequenceTail(r: string, s: string)
    requires |r| > 0 && SubsequenceOf(r, s)
    ensures SubsequenceOf(r[1..], s)
    decreases |s|, 1
  {
    if |s| > 0 {
      if r[0] == s[0] {
        if |r| > 1 {
          SubsequenceTail(r[1..], s[1..]);
          assert r[1..][1..] == r[2..];
        }
        SubsequenceSkip(r[1..], s);
      } else {
        SubsequenceTail(r, s[1..]);
        SubsequenceSkip(r[1..], s);
      }
    }
  }

  /** The filter works character by character: it distributes over concatenation. */
  lemma {:induction false} RemovePunctuationConcat(a: string, b: string)
    ensures RemovePunctuation(a + b) == RemovePunctuation(a) + RemovePunctuation(b)
    decreases |a|
  {
    if |a| == 0 {
      assert a + b == b;
    } else {
      assert (a + b)[1..] == a[1..] + b;
      assert (a + b)[0] == a[0];
      RemovePunctuationConcat(a[1..], b);
    }
  }

  /** Filtering twice is filtering once. */
  lemma RemovePunctuationIdempotent(s: string)
    ensures RemovePunctuation(RemovePunctuation(s)) == RemovePunctuation(s)
  {
  }

  /** The text after lower-casing, possessive removal and filtering, before it is split. */
  function Normalize(text: string): (r: string)
    ensures forall i :: 0 <= i < |r| ==> TokenChar(r[i]) || r[i] == ' '
  {
    var lower := ToLower(text);
    var stripped := Replace(lower, Possessive, "");
    ReplaceChars(lower, Possessive, "");
    assert forall c :: c in stripped ==> !IsUpper(c);
    var r := RemovePunctuation(stripped);
    assert forall i :: 0 <= i < |r| ==> TokenChar(r[i]) || r[i] == ' ' by {
      forall i | 0 <= i < |r|
        ensures TokenChar(r[i]) || r[i] == ' '
      {
        assert r[i] in r;
      }
    }
    r
  }

  /**
   * The token sequence of characters.go:138-144 for ASCII text. Every token is a
   * non-empty run of lower-case letters, digits and hyphens.
   */
  function Tokenize(text: string): (words: seq<string>)
    requires IsAscii(text)
    ensures forall k :: 0 <= k < |words| ==> |words[k]| > 0
    ensures forall k, i :: 0 <= k < |words| && 0 <= i < |words[k]| ==> TokenChar(words[k][i])
  {
    var s := Normalize(text);
    var words := Fields(s);
    FieldsAreWords(s);
    FieldsChars(s);
    assert forall k, i :: 0 <= k < |words| && 0 <= i < |words[k]| ==> TokenChar(words[k][i]) by {
      forall k, i | 0 <= k < |words| && 0 <= i < |words[k]|
        ensures TokenChar(words[k][i])
      {
        var c := words[k][i];
        assert c in s && !IsSpace(c);
        var m :| 0 <= m < |s| && s[m] == c;
      }
    }
    words
  }

  /** Text made only of token characters and spaces is a fixed point of normalisation. */
  lemma NormalizeClean(s: string)
    requires forall i :: 0 <= i < |s| ==> TokenChar(s[i]) || s[i] == ' '
    ensures Normalize(s) == s
  {
    ToLowerNoUpper(s);
    ReplaceAbsent(s, Possessive, "");
  }

  /** Tokens joined by spaces are made of token characters and spaces only. */
  lemma JoinedTokensClean(words: seq<string>)
    requires forall k, i :: 0 <= k < |words| && 0 <= i < |words[k]| ==> TokenChar(words[k][i])
    ensures forall i :: 0 <= i < |JoinSpace(words)| ==> TokenChar(JoinSpace(words)[i]) || JoinSpace(words)[i] == ' '
  {
    var joined := JoinSpace(words);
    JoinSpaceChars(words);
    forall i | 0 <= i < |joined| && joined[i] != ' '
      ensures TokenChar(joined[i])
    {
      var k :| 0 <= k < |words| && joined[i] in words[k];
      var m :| 0 <= m < |words[k]| && words[k][m] == joined[i];
    }
  }

  /** Joining the tokens with single spaces and tokenizing again gives the same tokens. */
  lemma TokenizeJoinRoundTrip(text: string)
    requires IsAscii(text)
    ensures IsAscii(JoinSpace(Tokenize(text)))
    ensures Tokenize(JoinSpace(Tokenize(text))) == Tokenize(text)
  {
    var words := Tokenize(text);
    var joined := JoinSpace(words);
    JoinedTokensClean(words);
    assert IsAscii(joined);
    NormalizeClean(joined);
    FieldsOfJoin(words);
  }

  /** A space always separates tokens: the tokens of both sides, concatenated. */
  lemma TokenizeSpaceSplits(a: string, b: string)
    requires IsAscii(a) && IsAscii(b)
    ensures IsAscii(a + [' '] + b)
    ensures Tokenize(a + [' '] + b) == Tokenize(a) + Tokenize(b)
  {
    SeparatorSplits(a, ' ', b);
    FieldsSplit(Normalize(a), ' ', Normalize(b));
  }

  /** Normalisation of text around a character that is kept and cannot belong to a possessive. */
  lemma SeparatorSplits(a: string, c: char, b: string)
    requires Kept(c) && !IsUpper(c) && c != 's'
    ensures Normalize(a + [c] + b) == Normalize(a) + [c] + Normalize(b)
  {
    ToLowerConcat(a + [c], b);
    ToLowerConcat(a, [c]);
    var la, lb := ToLower(a), ToLower(b);
    assert ToLower([c]) == [c];
    ReplaceSeparated(la, c, lb, Possessive, "");
    var ra, rb := Replace(la, Possessive, ""), Replace(lb, Possessive, "");
    RemovePunctuationConcat(ra + [c], rb);
    RemovePunctuationConcat(ra, [c]);
    assert RemovePunctuation([c]) == [c];
  }

  /** After lower-casing: a deleted character that is not an apostrophe vanishes from the filtered text. */
  lemma StripAroundDeleted(x: string, c: char, y: string)
    requires !Kept(c) && c != '\''
    ensures RemovePunctuation(Replace(x + [c] + y, Possessive, ""))
         == RemovePunctuation(Replace(x, Possessive, "")) + RemovePunctuation(Replace(y, Possessive, ""))
  {
    var rx, ry := Replace(x, Possessive, ""), Replace(y, Possessive, "");
    ReplaceSeparated(x, c, y, Possessive, "");
    RemovePunctuationConcat(rx + [c], ry);
    RemovePunctuationConcat(rx, [c]);
    assert RemovePunctuation([c]) == [];
    assert RemovePunctuation(rx) + [] == RemovePunctuation(rx);
  }

  /** After lower-casing: gluing two texts does not change the filtered text unless it creates an "'s". */
  lemma StripGlued(x: string, y: string)
    requires !(|x| > 0 && |y| > 0 && x[|x| - 1] == '\'' && y[0] == 's')
    ensures RemovePunctuation(Replace(x + y, Possessive, ""))
         == RemovePunctuation(Replace(x, Possessive, "")) + RemovePunctuation(Replace(y, Possessive, ""))
  {
    ReplacePairConcat(x, y, Possessive, "");
    RemovePunctuationConcat(Replace(x, Possessive, ""), Replace(y, Possessive, ""));
  }

  /**
   * A deleted character other than the apostrophe (a newline, a tab, a full stop...)
   * does not separate words: the text on both sides is glued together, unless that
   * creates a possessive "'s" across the seam.
   */
  lemma DeletedCharJoins(a: string, c: char, b: string)
    requires IsAscii(a) && IsAscii(b) && c as int < 128
    requires !Kept(c) && c != '\''
    requires !(|a| > 0 && |b| > 0 && a[|a| - 1] == '\'' && LowerChar(b[0]) == 's')
    ensures IsAscii(a + [c] + b) && IsAscii(a + b)
    ensures Tokenize(a + [c] + b) == Tokenize(a + b)
  {
    AsciiJoin(a, c, b);
    NormalizeDeleted(a, c, b);
  }

  lemma AsciiJoin(a: string, c: char, b: string)
    requires IsAscii(a) && IsAscii(b) && c as int < 128
    ensures IsAscii(a + [c] + b) && IsAscii(a + b)
  {
  }

  /** Lower-casing leaves a character that is not upper case in place between the two lowered sides. */
  lemma LowerAround(a: string, c: char, b: string)
    requires !IsUpper(c)
    ensures ToLower(a + [c] + b) == ToLower(a) + [c] + ToLower(b)
  {
    ToLowerConcat(a + [c], b);
    ToLowerConcat(a, [c]);
    assert ToLower([c]) == [c];
  }

  lemma NormalizeDeleted(a: string, c: char, b: string)
    requires !Kept(c) && c != '\''
    requires !(|a| > 0 && |b| > 0 && a[|a| - 1] == '\'' && LowerChar(b[0]) == 's')
    ensures Normalize(a + [c] + b) == Normalize(a + b)
  {
    var la, lb := ToLower(a), ToLower(b);
    LowerAround(a, c, b);
    ToLowerConcat(a, b);
    if |a| > 0 && |b| > 0 {
      assert la[|la| - 1] == '\'' ==> a[|a| - 1] == '\'';
      assert lb[0] == LowerChar(b[0]);
    }
    StripAroundDeleted(la, c, lb);
    StripGlued(la, lb);
  }

  /** Text made only of token characters. */
  predicate IsToken(w: string) {
    |w| > 0 && forall i :: 0 <= i < |w| ==> TokenChar(w[i])
  }

  /** A token is its own tokenization. */
  lemma TokenizeToken(w: string)
    requires IsToken(w)
    ensures IsAscii(w) && Tokenize(w) == [w]
  {
    NormalizeClean(w);
    FieldsOfWord(w);
  }

  /** Two words separated only by a newline become one token, e.g. "end\nstart" gives "endstart". */
  lemma NewlineMergesWords(a: string, b: string)
    requires IsToken(a) && IsToken(b)
    ensures IsAscii(a + "\n" + b)
    ensures Tokenize(a + "\n" + b) == [a + b]
  {
    assert TokenChar(a[|a| - 1]);
    DeletedCharJoins(a, '\n', b);
    assert a + "\n" + b == a + ['\n'] + b;
    TokenizeToken(a + b);
  }

  /** A possessive is merged into the name it follows: "harry's" gives "harry". */
  lemma PossessiveIsDropped(name: string)
    requires IsToken(name)
    ensures IsAscii(name + Possessive)
    ensures Tokenize(name + Possessive) == [name]
  {
    NormalizePossessive(name);
    FieldsOfWord(name);
  }

  /** Normalising a token followed by "'s" gives the token back. */
  lemma NormalizePossessive(name: string)
    requires IsToken(name)
    ensures Normalize(name + Possessive) == name
  {
    var s := name + Possessive;
    assert forall i :: 0 <= i < |s| ==> !IsUpper(s[i]);
    ToLowerNoUpper(s);
    StripPossessive(name);
    NormalizeClean(name);
  }

  /** A possessive after text without apostrophes is removed and nothing else changes. */
  lemma StripPossessive(name: string)
    requires '\'' !in name
    ensures Replace(name + Possessive, Possessive, "") == name
  {
    ReplaceCleanPrefix(name, Possessive, Possessive, "");
    assert Replace(Possessive, Possessive, "") == "";
  }
}

=== FILE: wrappers.dfy ===
/** An optional value and a success-or-error result. */
module Wrappers {

  /** A value that may be absent, used where the source signals failure by an error value. */
  datatype Option<+T> = None | Some(value: T)

  /** Either a computed value or the reason it could not be computed. */
  datatype Result<+R, +E> = Success(value: R) | Failure(error: E)
}
